=== FILE: README.md ===
# mighty-share wallet ledger, in Dafny

This project models the wallet top-up and registration-fee logic of
mighty-share, a Next.js savings platform, together with the small business
rules around it. Each HTTP route handler is a pure function from the store,
the request and the gateway's reply to the new store and the route's reply
(`Step(store, outcome)`).

The store (`Ledger.Store`) holds the tables the routes touch, each as a
sequence in insertion order:

- users, with the one-way `registrationPaid` latch and their notifications;
- accounts and their balances;
- top-up transactions;
- registration payments;
- thrift packages and subscriptions;
- settlement accounts;
- scheduled and paid settlements.

A `findFirst`/`findUnique` is the first matching row (`Base.FirstIndex`).
Money is an exact rational number of naira. Gateway amounts in kobo are
integers divided by 100.

Modelled routes:

- **Wallet top-up, ALATPay.** `alatpay/topup` creates the pending record
  and asks for a virtual account. `alatpay/topup-verify` credits the stored
  amount once, less the plan's registration fee while the user is
  unregistered.
- **Wallet top-up, Paystack.** `wallet/topup` creates the record with a
  fixed 2500 guard. `wallet/callback` credits the gateway's amount less a
  fixed 2500 fee, and marks records failed on a non-success verdict.
- **ALATPay callback.** The browser redirect (`GET`) and the webhook
  (`POST`), which credits by phone number with no idempotency.
- **Registration verification.** `alatpay/verify` and `paystack/verify`
  set a Payment to SUCCESSFUL and set the latch.
- **Business rules.** The plan table; the per-plan account limit; thrift
  return and end-date arithmetic; the default settlement account; the
  ownership guards on settlement records; the contact form's honeypot,
  per-IP rate limit and email-shape validation.

Proved across routes (`Reconciliation`):

- The latch never goes from true to false, over any sequence of calls to any
  of the modelled routes.
- A top-up record created by an initialiser and then verified gives a
  non-negative credit. For Paystack this holds only when Paystack confirms
  the recorded amount.

Also proved, as the code is written:

- `alatpay/topup-verify` credits at most once per orderId.
- The wallet callback can credit a reference a second time after a failure
  verdict, because its failure marking also rewrites successful records.
- The ALATPay webhook credits a replayed delivery again.

Modelled as written:

- `alatpay/topup-verify` without an `orderId` loads the first transaction of
  the table, because the ORM drops a filter whose value is undefined.
- The routes disagree on the fee: a plan-dependent fee in the ALATPay
  top-up routes, a fixed 2500 in the Paystack routes and the webhook.

## Model

| member | source | states |
|---|---|---|
| Plans.Lookup | config/plan.ts:1-15 | Exactly plans A, B and C have an entry: 2500 / 100 accounts, 10000 / 500, 70000 / 1000. Every amount and account limit is positive. |
| Plans.RegistrationFee | app/api/alatpay/topup-verify/route.ts:93-94 | The fee is positive. It is the plan's own amount for a plan in the table, and plan A's amount otherwise. |
| Base.FirstIndex | app/api/alatpay/topup-verify/route.ts:36-47 | The lookup finds a row iff some row matches. The row it finds matches, and no earlier row does. |
| Ledger.CreditAccount | app/api/alatpay/topup-verify/route.ts:108-113 | One account's balance rises by the credit; every other account is unchanged. |
| Ledger.TotalBalanceUpdate | app/api/alatpay/topup-verify/route.ts:105-113 | Changing one balance changes the sum of all balances by the same difference. |
| Gateways.KoboToNaira | app/api/wallet/callback/route.ts:91 | The naira amount times 100 is the kobo amount. |
| Gateways.ErrorStatus | app/api/paystack/verify/route.ts:106-115 | A gateway error answers with the gateway's HTTP status. It answers 500 when there is none or when the status is 0 (`|| 500`), and never 0. |
| Gateways.ErrorStatusIdempotent | app/api/paystack/verify/route.ts:106-115 | Mapping an already-mapped status again gives the same status. |
| AlatpayTopupVerify.Verify | app/api/alatpay/topup-verify/route.ts:10-171 | With neither id the reply is 400 and nothing is written. Each refusal holds iff its check fails. No session gives 401 and no loaded record gives 404. A missing account or user gives 500. A thrown call or a reply without data gives 400 "could not verify", and any other reply short of a completed transfer of the stored amount gives 400. The route credits iff there is an id and a session, the loaded record is not yet successful, its account and user exist, and the gateway reports a truthy status, "completed" and at least the stored amount. Any outcome other than a credit leaves the store unchanged. The reply is alreadyProcessed iff there is an id and a session and the loaded record is already successful; it reports that record's amount. A credit needs a truthy status, "completed" and at least the stored amount, and it applies credit = stored amount − plan fee (only while unregistered), status successful with the platform reference, the latch, and the notifications, with nothing else changed. The latch never drops. |
| AlatpayTopupVerify.LookupIndex | app/api/alatpay/topup-verify/route.ts:36-39 | With an orderId, the loaded row has that reference, and no row is loaded only when none has it. Without an orderId, the table's first row is loaded, and nothing only when the table is empty. transactionId is not an argument. |
| AlatpayTopupVerify.LookupStable | app/api/alatpay/topup-verify/route.ts:36-39 | The record lookup depends only on the references: writes that keep every reference in place load the same row again. |
| AlatpayTopupVerify.VerifyBalance | app/api/alatpay/topup-verify/route.ts:105-113 | The sum of all balances rises by exactly the credited amount, and by nothing on any other outcome. |
| AlatpayTopupVerify.VerifyIdempotent | app/api/alatpay/topup-verify/route.ts:56-66 | After a credit, the next call for the same orderId answers alreadyProcessed with the same amount and writes nothing, whatever the gateway says. |
| AlatpayTopupVerify.ReplayAfterSuccess | app/api/alatpay/topup-verify/route.ts:56-66 | Once the loaded record is successful, any run of calls for that orderId writes nothing and credits nothing. |
| AlatpayTopupVerify.AtMostOneCredit | app/api/alatpay/topup-verify/route.ts:56-122 | Any run of calls for one orderId, with any gateway replies, credits at most once. |
| AlatpayTopup.Topup | app/api/alatpay/topup/route.ts:21-148 | No token gives 401 and a non-positive or NaN amount gives 400, before any write. Each later refusal happens iff its check fails: user not found, no first account, unregistered with an amount below the plan fee (reported as that fee), reference already taken. Every refusal leaves the store unchanged. A record is appended iff all checks pass: fresh reference "TOPUP-" + 10 UUID characters, the parsed amount, "topup", "alatpay", the first account. Its amount is at least the plan fee when the user is unregistered. After the record is written, the answer is decided by the gateway alone. An unconfigured key gives 500 and a thrown call gives the gateway's status (ErrorStatus). HTTP 200 with a truthy status gives success. Any other answer marks the record failed and gives 400; otherwise the record stays pending. The gateway request carries the same amount and orderId. |
| WalletTopup.Topup | app/api/wallet/topup/route.ts:20-139 | The same shape as the ALATPay initialiser: each refusal iff its check fails, and a record appended iff all pass. The differences are: a fixed 2500 minimum while unregistered; "TOPUP-" + 16 UUID characters; method "paystack"; the gateway asked for amount × 100 kobo; success is answered iff Paystack gives a truthy status and a non-empty authorization_url, and it returns that paymentUrl with the reference and amount; a truthy status without data gives 500; the record is failed iff Paystack answered with a falsy status or an empty authorization_url. |
| WalletCallback.MarkFailed | app/api/wallet/callback/route.ts:51-57 | Every record with the reference becomes failed with the platform reference, whatever its status. All other records are unchanged. |
| WalletCallback.Callback | app/api/wallet/callback/route.ts:12-156 | With no reference or trxref, nothing is written. A reply without status or data redirects with verification_failed and writes nothing. Only the failure branch and the credit write. A non-success verdict marks every record with the reference failed, before the record is even looked up. The route credits iff Paystack answers "success" with data and the loaded record exists, is not yet successful, and has its account and user. An already-successful record is never credited. A credit applies the gateway amount in naira less 2500 exactly while unregistered, sets the record successful and the latch, appends a welcome notification when the fee was taken and then one credit notification, and reports amount and reg_fee. |
| WalletCallback.CallbackIdempotent | app/api/wallet/callback/route.ts:82-87 | After a credit, calling back for the same reference never credits again. It writes nothing unless the verdict is now a failure. |
| WalletCallback.SecondCreditAfterFailureVerdict | app/api/wallet/callback/route.ts:48-62 | Failure marking reopens a credited record. A success verdict, then a non-success verdict, then a success verdict credits the reference twice. |
| AlatpayCallback.RedirectTarget | app/api/alatpay/callback/route.ts:18-38 | With neither orderId nor reference the redirect reports no_reference. Otherwise it carries orderId, else reference, provider alatpay, and the status, defaulting to "pending". |
| AlatpayCallback.RedirectRoundTrip | app/api/alatpay/callback/route.ts:18-38 | The verify page's own `reference` and `status` query parameters, read back as a redirect request, lead to the same page. |
| AlatpayCallback.WebhookCredit | app/api/alatpay/callback/route.ts:87-98 | Registered users get the whole amount. Unregistered users get amount − 2500 when the amount covers the fee, else 0, so an unregistered user's credit is never negative. |
| AlatpayCallback.Receive | app/api/alatpay/callback/route.ts:50-122 | An unreachable verification gives 500. Any verdict other than "success" gives 400. A "success" with no user for the webhook's phone gives 404. The webhook updates iff the verification says "success" and a user has the webhook's phone; nothing else writes. The latch becomes old OR amount ≥ 2500. Only the first account, if any, gains the credit. One notification is appended, and nothing else changes. |
| AlatpayCallback.ReplayCreditsAgain | app/api/alatpay/callback/route.ts:87-120 | Delivering the same verified webhook twice credits the first account twice. The second time it credits the whole amount. |
| AlatpayVerify.Verify | app/api/alatpay/verify/route.ts:11-124 | With neither reference nor orderId the reply is 400. No session gives 401, and no payment of the caller's for the reference gives 404. A found payment with an envelope other than "success" or without data gives 400. A paid status other than "Successful"/"SUCCESSFUL" gives 400 with that status. A thrown call, or a verified payment whose user row is missing, gives 400. Only the caller's payment with orderId = reference, else orderId, is considered. The reply is verified iff there is a session, the caller's payment exists, the envelope says "success" with "Successful"/"SUCCESSFUL" data, and the caller's user row exists. Only that data writes: the payment becomes SUCCESSFUL and the caller is registered. Every other case leaves the store unchanged. The reported amount is the gateway's, or the stored one when that is missing or zero. |
| AlatpayVerify.VerifyIdempotent | app/api/alatpay/verify/route.ts:64-97 | Verifying a verified payment again with the same reply, at any instant, answers the same and rewrites only the payment's verification time; at the same instant it changes nothing. |
| PaystackVerify.Verify | app/api/paystack/verify/route.ts:11-102 | A missing reference, or a reply without status, data or "success", gives 400 before authentication and writes nothing. A thrown call gives the gateway's status. After confirmation, no session gives 401 and no payment of the caller's gives 404. A missing user row after the payment write gives 500. The reply is verified iff that check passes, there is a session, and the caller's payment with orderId = reference and the caller's user row exist. Success makes that payment SUCCESSFUL and registers the caller. It reports kobo / 100 and Paystack's reference. |
| PaystackVerify.VerifyIdempotent | app/api/paystack/verify/route.ts:77-102 | Verifying a verified payment again with the same reply, at any instant, answers the same and rewrites only the payment's verification time; at the same instant it changes nothing. |
| AccountsAdd.PlanLimits | app/api/accounts/add/route.ts:4-30 | For plans in the plan table, the ceilings equal the table's account limits: 100, 500 and 1000. Any other plan gets {min 1, max 1}, and min ≤ max always. |
| AccountsAdd.DecimalRoundTrip | app/api/accounts/add/route.ts:10 | The digits written for the timestamp read back as the timestamp. |
| AccountsAdd.AccountNumberInjective | app/api/accounts/add/route.ts:10 | "MS" + timestamp account numbers from different clock readings differ. |
| AccountsAdd.Add | app/api/accounts/add/route.ts:14-55 | The reply is 400 iff the userId is missing or zero, and 404 iff the user is unknown. It is 403 iff the user already holds at least the plan's maximum. It is 500 iff the account number "MS" + timestamp is already taken, since the number is unique. Otherwise exactly one account is appended: the user's, balance 0, with that fresh number. |
| AccountsAdd.AddKeepsNumbersUnique | app/api/accounts/add/route.ts:39-47 | If no two accounts share a number before an add, none do after it. |
| AccountsAdd.AddStaysWithinLimit | app/api/accounts/add/route.ts:26-47 | A successful add raises the user's count by one and never above the plan's maximum. Other users' counts are unchanged. |
| ThriftSubscriptions.EndDate | app/api/thrift/subscriptions/route.ts:124-126 | The end is duration × 7 days after the start, and never before it for a non-negative duration. |
| ThriftSubscriptions.ExpectedReturn | app/api/thrift/subscriptions/route.ts:128-129 | The profit over the invested amount is amount × percentage / 100. With non-negative inputs the return is at least the amount, and at 100% it is double. |
| ThriftSubscriptions.Create | app/api/thrift/subscriptions/route.ts:86-146 | An unknown caller gives 404. Missing packageId or amountInvested gives 400 iff the caller exists. Past those checks, an unknown package gives 404 with no write, and a subscription is created iff the package exists. Then one active subscription of the caller is appended, with the end-date and expected-return arithmetic. |
| ThriftSubscriptions.Project | app/api/thrift/subscriptions/route.ts:51-62 | A row carries the subscription's fields and its own package's name, duration and profit percentage. |
| ThriftSubscriptions.List | app/api/thrift/subscriptions/route.ts:19-64 | No session gives 401 and an unknown caller gives 404. Any known caller gets a listing whose rows are exactly the caller's subscriptions, each once, newest first. |
| ThriftSubscriptions.ListShows | app/api/thrift/subscriptions/route.ts:19-64 | Every subscription of a known caller appears among that caller's listed rows. |
| ThriftSubscriptions.CreateKeepsPackagesPresent | app/api/thrift/subscriptions/route.ts:104-146 | If every subscription's package exists before a create, that remains true after it. |
| ThriftSubscriptions.CreateThenList | app/api/thrift/subscriptions/route.ts:19-146 | After a create, the caller's list shows the new subscription: its package's name and terms, the end date its duration gives, and the return its profit percentage gives. |
| SettlementAccounts.ClearDefaults | app/api/settlement-accounts/route.ts:53-58 | Every row of that user loses its default flag. Other users' rows are unchanged. |
| SettlementAccounts.Create | app/api/settlement-accounts/route.ts:36-70 | The reply is 400 with no write iff a required field is missing. Otherwise one row is appended, defaulting isDefault to false. A new default first clears that user's defaults, and a non-default leaves the existing rows unchanged. |
| SettlementAccounts.CreateKeepsOneDefault | app/api/settlement-accounts/route.ts:52-68 | At most one default per user is preserved. A new default is its user's only one, and other users' rows are unchanged. |
| SettlementAccounts.List | app/api/settlement-accounts/route.ts:9-24 | A missing userId gives 400. Otherwise the rows are exactly that user's accounts, each once, newest first. |
| NextSettlements.Create | app/api/settlements/next-settlement/route.ts:74-144 | An unknown caller gives 404. A known caller with a missing or zero accountId gives 400, and only that does. A row is created iff the caller exists and owns the given account. The reply is 403 with no write iff the account is not among the caller's. A created row belongs to the caller, has status "scheduled", and has the given priority or else "normal". |
| NextSettlements.CreateKeepsOwnership | app/api/settlements/next-settlement/route.ts:113-142 | If every scheduled payout is on an account its user owns, that remains true after a create. |
| NextSettlements.List | app/api/settlements/next-settlement/route.ts:19-52 | No session gives 401 and an unknown caller gives 404. Any known caller gets a listing whose rows are exactly the caller's "scheduled" payouts, each once, soonest first. |
| PaidSettlements.Create | app/api/settlements/paid-accounts/route.ts:73-141 | An unknown caller gives 404. A known caller with a missing or zero accountId gives 400, and only that does. A row is created iff the caller exists and owns the given account. The reply is 403 with no write iff the account is not among the caller's. A created row belongs to the caller and is dated now. |
| PaidSettlements.CreateKeepsOwnership | app/api/settlements/paid-accounts/route.ts:111-139 | If every paid record is on an account its user owns, that remains true after a create. |
| PaidSettlements.List | app/api/settlements/paid-accounts/route.ts:19-49 | No session gives 401 and an unknown caller gives 404. Any known caller gets a listing whose rows are exactly the caller's paid records, each once, most recent first. |
| Contact.FirstField | api/contact/route.ts:33 | The result is the part before the first comma. It contains no comma, and the comma or the end follows it. |
| Contact.Trim | api/contact/route.ts:33 | The result is the slice of the input after its leading white space, with only white space outside it. No leading or trailing JavaScript white space remains. |
| Contact.TrimEmpty | api/contact/route.ts:33 | The trimmed text is empty iff the input is all white space. |
| Contact.TrimKeepsCharacters | api/contact/route.ts:33 | Every character of the trimmed text occurs in the input. |
| Contact.ClientIp | api/contact/route.ts:32-35 | The IP is the first trimmed x-forwarded-for entry when non-empty (it has no comma), else x-real-ip when non-empty, else "unknown". |
| Contact.FirstFieldOfList | api/contact/route.ts:33 | A comma-free field followed by a comma and anything is split back off by the first-field step. |
| Contact.ClientIpFirstHop | api/contact/route.ts:32-35 | For a proxy chain "client,proxies" whose client entry is comma-free with no white space at either end, the IP is that client, whatever x-real-ip says. |
| Contact.ShapeAtByPositions | api/contact/route.ts:53 | The regex's three-run split is equivalent to a positional condition: one '@' not first, every other character plain, and a '.' strictly between the character after '@' and the last. |
| Contact.MatchEmail | api/contact/route.ts:53-59 | A single linear scan accepts exactly the strings `^[^\s@]+@[^\s@]+\.[^\s@]+$` matches. |
| Contact.Submit | api/contact/route.ts:20-100 | A filled honeypot gives 400 before the rate map is touched. The reply is 429 iff a non-zero stored time for the IP is under 30000 ms old, and then nothing changes. Otherwise the IP's time becomes now before validation. Past the honeypot and the limiter, the reply is 400 iff a field is missing, 400 iff the fields are present and the email does not match, 200 iff it matches and the mail was sent, and 500 iff the mail failed. A sent message is appended to the log when the insert works, and the log changes nothing else. |
| Contact.LogFailureKeepsReply | api/contact/route.ts:86-100 | Whether the log insert works changes neither the reply nor the rate map. |
| Contact.SecondWithinWindowRefused | api/contact/route.ts:36-44 | A second submission from the same IP less than 30 s after one that passed the honeypot is refused. This holds unless the first came at time 0. |
| Reconciliation.RunKeepsLatch | app/api/alatpay/callback/route.ts:87-113 | Over any sequence of calls to the store-writing routes, a registered user stays registered and the users keep their ids. |
| Reconciliation.AlatpayCreditNonNegative | app/api/alatpay/topup/route.ts:51-63 | A record created by the ALATPay initialiser and then verified credits a non-negative amount to the initiating user. |
| Reconciliation.WalletCreditNonNegative | app/api/wallet/callback/route.ts:91-100 | A record created by the Paystack initialiser and then confirmed for its recorded amount credits a non-negative amount. |

## Left out

- HTTP, cookies and JWT: the authenticated userId is an input (`None` without a token). A token that fails `jwt.verify` (a 500) is not modelled.
- Gateway HTTP calls (ALATPay, Paystack): each reply is an input value. A thrown call is its own reply constructor.
- The ORM's persistence: tables are sequences, a `$transaction` is one atomic step, and concurrent requests are out of scope. Database failures and the partial writes they would leave are not modelled. The foreign keys are assumed to hold where a route relies on them.
- Floating point: amounts are exact rationals, so rounding of kobo conversion and of the thrift return is not modelled. `Number()` of a non-number is NaN, and NaN is modelled as an absent amount. Infinite amounts are not modelled.
- Clock, UUID and autoincrement ids are parameters. Whether the gateway key is configured is a boolean parameter.
- Message texts, `toLocaleString`, description strings and the JSON metadata merged into payments are not modelled. A verification's timestamp and gateway stand for that metadata.
- ThriftSubscriptions.EndDate: counts whole 24-hour days on the millisecond clock, so local-time daylight-saving shifts of `setDate` are not modelled.
- Request fields of the wrong JSON type are not modelled: a string userId or amountInvested, a non-boolean isDefault, an unparsable date. A userId is a number, and `0` is falsy.
- AccountsAdd.PlanLimits: a plan string naming an inherited object property (such as "constructor") yields no `max` in JavaScript and so no limit. The model gives such plans the {1, 1} fallback.
- AlatpayCallback.RedirectRoundTrip: the redirect is modelled as a structured record, not a URL string. The source interpolates orderId/reference and status into the query unescaped, so a value containing `&`, `#`, `+` or `%` reaches the page altered (orderId `a&status=failed` arrives as reference `a` and status `failed`). The round trip holds only for values free of those characters.
- A `null` orderId in `alatpay/topup-verify` is treated like an absent one.
- Row order: the database returns `findFirst` matches and `user.accounts` in an unspecified order. The model fixes insertion order, so "the first" matching row, transaction or account is the earliest inserted.
- The database schema is not part of this model. The uniqueness of `Account.accountNumber` follows from the `findUnique` lookup by that column in app/api/alatpay/verify/[reference]/route.ts:30-32. The uniqueness of `Transaction.reference` is likewise assumed.
- Email sending (the transport's result is an input) and the content of the mail are not modelled.
- The wema top-up route, the thin CRUD routes, the UI components and the seed data are outside this model.

=== FILE: accounts_add.dfy ===
/** `POST /api/accounts/add`: opens one more zero-balance account for a user,
    refusing once the user holds as many accounts as the plan allows. */
module AccountsAdd {
  import opened Base
  import opened Ledger
  import Plans

  /** A `PLAN_LIMITS` entry. */
  datatype Limits = Limits(min: int, max: int)

  /** `PLAN_LIMITS[plan] || { min: 1, max: 1 }`: the ceilings are the plan
      table's account limits, and only plans outside the table fall back to a
      single account. */
  function PlanLimits(plan: string): (l: Limits)
    ensures 1 <= l.min <= l.max
    ensures Plans.Lookup(plan).Some? ==> l.max == Plans.Lookup(plan).value.accountLimit
    ensures Plans.Lookup(plan).None? ==> l == Limits(1, 1)
  {
    if plan == "A" then Limits(1, 100)
    else if plan == "B" then Limits(1, 500)
    else if plan == "C" then Limits(10, 1000)
    else Limits(1, 1)
  }

  /** The character of a decimal digit. */
  function Digit(d: nat): (c: char)
    requires d < 10
    ensures '0' <= c <= '9'
  {
    ['0', '1', '2', '3', '4', '5', '6', '7', '8', '9'][d]
  }

  predicate IsDecimal(r: string)
  {
    |r| >= 1 && forall i :: 0 <= i < |r| ==> '0' <= r[i] <= '9'
  }

  /** `${n}` for a non-negative integer: its decimal digits, without leading
      zeros. */
  function DecimalString(n: nat): (r: string)
    ensures IsDecimal(r)
    ensures r[0] != '0' || r == "0"
  {
    if n < 10 then [Digit(n)]
    else DecimalString(n / 10) + [Digit(n % 10)]
  }

  /** The number a digit string denotes. */
  function DecimalValue(r: string): nat
    requires IsDecimal(r)
  {
    var d := (r[|r| - 1] as int) - ('0' as int);
    if |r| == 1 then d
    else DecimalValue(r[..|r| - 1]) * 10 + d
  }

  /** The digits name the number they were made from. */
  lemma {:induction false} DecimalRoundTrip(n: nat)
    ensures DecimalValue(DecimalString(n)) == n
  {
    if n >= 10 {
      var r := DecimalString(n);
      assert r[..|r| - 1] == DecimalString(n / 10);
      DecimalRoundTrip(n / 10);
    }
  }

  /** `formatAccountId(Date.now())`: `MS` and the millisecond clock. */
  function AccountNumber(now: nat): (r: string)
    ensures |r| > 2 && r[..2] == "MS" && IsDecimal(r[2..])
  {
    "MS" + DecimalString(now)
  }

  /** Two clock readings give the same account number only when they are
      equal. */
  lemma AccountNumberInjective(now1: nat, now2: nat)
    requires AccountNumber(now1) == AccountNumber(now2)
    ensures now1 == now2
  {
    assert AccountNumber(now1)[2..] == DecimalString(now1);
    assert AccountNumber(now2)[2..] == DecimalString(now2);
    DecimalRoundTrip(now1);
    DecimalRoundTrip(now2);
  }

  /** `userId` from the body, `None` when absent. */
  datatype Request = Request(userId: Option<UserId>)

  datatype Outcome =
    | MissingUserId
    | UserNotFound
    | LimitReached(plan: string)
    /** the account number is already taken: the unique constraint makes the create throw */
    | DuplicateAccountNumber
    | Added(account: Account)

  function HttpStatus(o: Outcome): int
  {
    match o
    case MissingUserId => 400
    case UserNotFound => 404
    case LimitReached(_) => 403
    case DuplicateAccountNumber => 500
    case Added(_) => 200
  }

  /** The number of accounts the user holds. */
  function AccountCount(s: Store, uid: UserId): nat
  {
    |AccountsOf(s, uid)|
  }

  /** Some account already carries this number (`accountNumber` is unique). */
  predicate NumberTaken(s: Store, number: string)
  {
    exists j :: 0 <= j < |s.accounts| && s.accounts[j].accountNumber == number
  }

  /** `now` is `Date.now()`, `newId` the autoincrement id of the new row. */
  function Add(s: Store, req: Request, now: nat, newId: AccountId): (r: Step<Outcome>)
    ensures r.outcome == MissingUserId <==> req.userId.None? || req.userId == Some(0)
    ensures !r.outcome.Added? ==> r.store == s
    ensures r.outcome == DuplicateAccountNumber <==>
              && req.userId.Some? && req.userId != Some(0) && UserIndex(s, req.userId.value).Some?
              && AccountCount(s, req.userId.value) < PlanLimits(s.users[UserIndex(s, req.userId.value).value].plan).max
              && NumberTaken(s, AccountNumber(now))
    ensures r.outcome.Added? ==> !NumberTaken(s, r.outcome.account.accountNumber)
    ensures r.outcome.UserNotFound? <==> req.userId.Some? && req.userId != Some(0) && UserIndex(s, req.userId.value).None?
    ensures r.outcome.LimitReached? <==>
              && req.userId.Some? && req.userId != Some(0) && UserIndex(s, req.userId.value).Some?
              && AccountCount(s, req.userId.value) >= PlanLimits(s.users[UserIndex(s, req.userId.value).value].plan).max
    ensures r.outcome.Added? ==>
              && req.userId.Some?
              && r.outcome.account == Account(newId, req.userId.value, AccountNumber(now), 0.0)
              && r.store == s.(accounts := s.accounts + [r.outcome.account])
  {
    if req.userId.None? || req.userId == Some(0) then Step(s, MissingUserId)
    else
      match UserIndex(s, req.userId.value)
      case None => Step(s, UserNotFound)
      case Some(u) =>
        var user := s.users[u];
        if AccountCount(s, user.id) >= PlanLimits(user.plan).max then Step(s, LimitReached(user.plan))
        else if NumberTaken(s, AccountNumber(now)) then Step(s, DuplicateAccountNumber)
        else
          var account := Account(newId, user.id, AccountNumber(now), 0.0);
          Step(s.(accounts := s.accounts + [account]), Added(account))
  }

  /** A successful add raises the user's count by exactly one and never past
      the plan's ceiling; other users' counts do not move. */
  lemma AddStaysWithinLimit(s: Store, req: Request, now: nat, newId: AccountId, other: UserId)
    requires Add(s, req, now, newId).outcome.Added?
    ensures var s' := Add(s, req, now, newId).store;
            var uid := req.userId.value;
            && AccountCount(s', uid) == AccountCount(s, uid) + 1
            && AccountCount(s', uid) <= PlanLimits(s.users[UserIndex(s, uid).value].plan).max
            && (other != uid ==> AccountCount(s', other) == AccountCount(s, other))
  {
    var s' := Add(s, req, now, newId).store;
    var a := Add(s, req, now, newId).outcome.account;
    FilterAppend(s.accounts, a, (x: Account) => x.userId == req.userId.value);
    FilterAppend(s.accounts, a, (x: Account) => x.userId == other);
  }

  /** No two accounts share a number. */
  ghost predicate UniqueNumbers(s: Store)
  {
    forall i, j :: 0 <= i < j < |s.accounts| ==> s.accounts[i].accountNumber != s.accounts[j].accountNumber
  }

  /** Adding an account keeps account numbers unique, as the database's
      unique constraint demands. */
  lemma AddKeepsNumbersUnique(s: Store, req: Request, now: nat, newId: AccountId)
    requires UniqueNumbers(s)
    ensures UniqueNumbers(Add(s, req, now, newId).store)
  {
    var r := Add(s, req, now, newId);
    if r.outcome.Added? {
      forall i, j | 0 <= i < j < |r.store.accounts|
        ensures r.store.accounts[i].accountNumber != r.store.accounts[j].accountNumber
      {
        if j == |s.accounts| {
          assert r.store.accounts[i] == s.accounts[i];
        }
      }
    }
  }
}

=== FILE: alatpay_callback.dfy ===
/** `/api/alatpay/callback`: ALATPay's browser redirect (`GET`), which only
    forwards the reference to the registration-payment page, and its webhook
    (`POST`), which credits the first account of the user with the webhook's
    phone number, keeping back a fixed 2500 fee while the user is unregistered.
    The webhook keeps no record of what it processed. */
module AlatpayCallback {
  import opened Base
  import opened Ledger
  import opened Gateways

  /** The fixed registration fee of the webhook, in naira. */
  const RegistrationFee: real := 2500.0

  /** The `orderId`, `reference` and `status` query parameters of the redirect. */
  datatype RedirectRequest = RedirectRequest(orderId: Option<string>, reference: Option<string>, status: Option<string>)

  /** `/register-payment?status=failed&error=no_reference`, or
      `/register-payment?reference=…&provider=alatpay&status=…`. */
  datatype Redirect = NoReference | VerifyPage(reference: string, provider: string, status: string)

  function RedirectTarget(req: RedirectRequest): (r: Redirect)
    ensures r.NoReference? <==> !Present(req.orderId) && !Present(req.reference)
    ensures r.VerifyPage? ==> r.provider == "alatpay"
    ensures r.VerifyPage? && Present(req.orderId) ==> r.reference == req.orderId.value
    ensures r.VerifyPage? && !Present(req.orderId) ==> r.reference == req.reference.value
    ensures r.VerifyPage? && Present(req.status) ==> r.status == req.status.value
    ensures r.VerifyPage? && !Present(req.status) ==> r.status == "pending"
  {
    if !Present(req.orderId) && !Present(req.reference) then NoReference
    else VerifyPage(OrElse(req.orderId, req.reference).value, "alatpay", if Present(req.status) then req.status.value else "pending")
  }

  /** The `reference` and `status` query parameters the verify page's URL
      carries, read as a redirect request (it has no `orderId`). */
  function TargetQuery(r: Redirect): RedirectRequest
    requires r.VerifyPage?
  {
    RedirectRequest(None, Some(r.reference), Some(r.status))
  }

  /** The redirect is stable: the page's own query, read back as a redirect
      request, leads to the same page. */
  lemma RedirectRoundTrip(req: RedirectRequest)
    requires RedirectTarget(req).VerifyPage?
    ensures RedirectTarget(TargetQuery(RedirectTarget(req))) == RedirectTarget(req)
  {
  }

  /** The webhook body: `reference`, `status`, `amount` and `customer.phone`. */
  datatype Webhook = Webhook(reference: string, status: string, amount: real, phone: Option<string>)

  datatype Outcome =
    | NotSuccessful
    | UserNotFound
    | Updated(userId: UserId)
    /** the verification fetch failed */
    | ServerError

  function HttpStatus(o: Outcome): int
  {
    match o
    case NotSuccessful => 400
    case UserNotFound => 404
    case Updated(_) => 200
    case ServerError => 500
  }

  /** The balance increment: the whole amount once registered; before that the
      amount less the fee, or nothing when the amount does not cover the fee. */
  function WebhookCredit(registered: bool, amount: real): (credit: real)
    ensures registered ==> credit == amount
    ensures !registered ==> credit >= 0.0
    ensures !registered && amount < RegistrationFee ==> credit == 0.0
    ensures !registered && amount >= RegistrationFee ==> credit + RegistrationFee == amount
  {
    if registered then amount
    else if amount >= RegistrationFee then amount - RegistrationFee
    else 0.0
  }

  function Receive(s: Store, body: Webhook, reply: CheckoutReply): (r: Step<Outcome>)
    ensures !r.outcome.Updated? ==> r.store == s
    ensures r.outcome.ServerError? <==> reply.CheckoutUnreachable?
    ensures r.outcome.NotSuccessful? <==> reply.CheckoutAnswered? && reply.dataStatus != Some("success")
    ensures r.outcome.UserNotFound? <==>
              reply == CheckoutAnswered(Some("success")) && (!Present(body.phone) || UserIndexByPhone(s, body.phone.value).None?)
    ensures r.outcome.Updated? <==>
              reply == CheckoutAnswered(Some("success")) && Present(body.phone) && UserIndexByPhone(s, body.phone.value).Some?
    ensures r.outcome.Updated? ==> WebhookEffect(s, body, reply, r)
    ensures LatchKept(s, r.store)
  {
    match reply
    case CheckoutUnreachable => Step(s, ServerError)
    case CheckoutAnswered(dataStatus) =>
      if dataStatus != Some("success") then Step(s, NotSuccessful)
      else if !Present(body.phone) then Step(s, UserNotFound)
      else match UserIndexByPhone(s, body.phone.value)
      case None => Step(s, UserNotFound)
      case Some(u) =>
        var user := s.users[u];
        var registered := user.registrationPaid || body.amount >= RegistrationFee;
        var credit := WebhookCredit(user.registrationPaid, body.amount);
        var accounts := match FirstAccountIndex(s, user.id)
          case None => s.accounts
          case Some(a) => CreditAccount(s.accounts, a, credit);
        var user' := user.(
          registrationPaid := registered,
          lastActivity := PaymentVerified(body.amount),
          notifications := user.notifications + [PaymentReceived(body.amount)]);
        Step(s.(accounts := accounts, users := s.users[u := user']), Updated(user.id))
  }

  /** An accepted webhook: the verification said "success", the user is the
      one with the webhook's phone, the latch became old-latch OR amount ≥ 2500,
      the first account (if any) gained the credit, one notification was
      appended, and nothing else moved. */
  ghost predicate WebhookEffect(s: Store, body: Webhook, reply: CheckoutReply, r: Step<Outcome>)
    requires r.outcome.Updated?
  {
    var s' := r.store;
    && reply == CheckoutAnswered(Some("success"))
    && Present(body.phone)
    && UserIndexByPhone(s, body.phone.value).Some?
    && var u := UserIndexByPhone(s, body.phone.value).value;
    && u < |s.users|
    && var user := s.users[u];
    && r.outcome.userId == user.id
    && |s'.users| == |s.users|
    && s'.users[u] == user.(
         registrationPaid := user.registrationPaid || body.amount >= RegistrationFee,
         lastActivity := PaymentVerified(body.amount),
         notifications := user.notifications + [PaymentReceived(body.amount)])
    && (forall j :: 0 <= j < |s.users| && j != u ==> s'.users[j] == s.users[j])
    && (FirstAccountIndex(s, user.id).None? ==> s'.accounts == s.accounts)
    && (FirstAccountIndex(s, user.id).Some? ==>
          s'.accounts == CreditAccount(s.accounts, FirstAccountIndex(s, user.id).value, WebhookCredit(user.registrationPaid, body.amount)))
    && s' == s.(accounts := s'.accounts, users := s'.users)
  }

  /** No idempotency: delivering the same verified webhook twice credits the
      first account twice, the second time the whole amount since the first
      delivery already set the latch. */
  lemma ReplayCreditsAgain(s: Store, body: Webhook)
    requires Receive(s, body, CheckoutAnswered(Some("success"))).outcome.Updated?
    requires body.amount >= RegistrationFee
    requires FirstAccountIndex(s, s.users[UserIndexByPhone(s, body.phone.value).value].id).Some?
    ensures var reply := CheckoutAnswered(Some("success"));
            var s1 := Receive(s, body, reply).store;
            var r2 := Receive(s1, body, reply);
            var a := FirstAccountIndex(s, s.users[UserIndexByPhone(s, body.phone.value).value].id).value;
            && r2.outcome.Updated?
            && r2.store.accounts[a].balance == s1.accounts[a].balance + body.amount
  {
    var reply := CheckoutAnswered(Some("success"));
    var s1 := Receive(s, body, reply).store;
    var u := UserIndexByPhone(s, body.phone.value).value;
    UserIndexStable(s, s1, s.users[u].id, body.phone.value);
    AccountIndexStable(s, s1, s.users[u].id);
  }
}

=== FILE: alatpay_topup.dfy ===
/** `POST /api/alatpay/topup`: starts an ALATPay wallet top-up. Validates the
    amount, requires a first top-up to cover the plan's registration fee,
    records a pending transaction on the user's first account and asks
    ALATPay for a virtual account; a refused request marks the record failed. */
module AlatpayTopup {
  import opened Base
  import opened Ledger
  import opened Gateways
  import Plans

  /** `caller` is the session's userId (`None` without a token); `amount` is
      `Number(body.amount)`, `None` when that is NaN. */
  datatype Request = Request(caller: Option<UserId>, amount: Option<real>)

  datatype Outcome =
    | NotAuthenticated
    | InvalidAmount
    | UserNotFound
    | AccountNotFound
    | BelowRegistrationFee(fee: real)
    /** the reference is already taken: the unique constraint makes the create throw */
    | DuplicateReference
    /** the gateway key is not configured; the record stays pending */
    | NotConfigured
    | Initialized(request: InitRequest)
    | InitFailed(request: InitRequest)
    | GatewayError(code: int, request: InitRequest)

  function HttpStatus(o: Outcome): int
  {
    match o
    case NotAuthenticated => 401
    case InvalidAmount => 400
    case UserNotFound => 404
    case AccountNotFound => 404
    case BelowRegistrationFee(_) => 400
    case DuplicateReference => 500
    case NotConfigured => 500
    case Initialized(_) => 200
    case InitFailed(_) => 400
    case GatewayError(code, _) => code
  }

  /** `TOPUP-` and the first ten characters of the UUID: both the record's
      reference and the orderId sent to ALATPay. */
  function OrderId(uuid: string): string
  {
    "TOPUP-" + Prefix(uuid, 10)
  }

  /** A session and a positive amount: the checks before any lookup. */
  predicate Authenticated(req: Request)
  {
    req.caller.Some? && req.amount.Some? && req.amount.value > 0.0
  }

  /** The caller and their first account exist. */
  ghost predicate HasAccount(s: Store, req: Request)
  {
    && Authenticated(req)
    && UserIndex(s, req.caller.value).Some?
    && FirstAccountIndex(s, s.users[UserIndex(s, req.caller.value).value].id).Some?
  }

  /** Every check the route makes before writing passes: a registered user
      may top up any positive amount, an unregistered one at least the plan's
      registration fee. */
  ghost predicate Accepted(s: Store, req: Request)
  {
    && HasAccount(s, req)
    && var user := s.users[UserIndex(s, req.caller.value).value];
    && (user.registrationPaid || req.amount.value >= Plans.RegistrationFee(user.plan))
  }

  /** The pending record the route creates for an accepted request. */
  ghost predicate IsTopupRecord(s: Store, req: Request, uuid: string, newId: int, x: Transaction)
  {
    && req.caller.Some?
    && req.amount.Some?
    && UserIndex(s, req.caller.value).Some?
    && var user := s.users[UserIndex(s, req.caller.value).value];
    && FirstAccountIndex(s, user.id).Some?
    && x == Transaction(newId, OrderId(uuid), req.amount.value, "topup", x.status, "alatpay",
                        s.accounts[FirstAccountIndex(s, user.id).value].id, None)
    && x.amount > 0.0
    && (!user.registrationPaid ==> x.amount >= Plans.RegistrationFee(user.plan))
  }

  function Topup(s: Store, req: Request, uuid: string, newId: int, configured: bool, reply: VirtualAccountReply)
    : (r: Step<Outcome>)
    ensures req.caller.None? ==> r == Step(s, NotAuthenticated)
    ensures req.caller.Some? && (req.amount.None? || req.amount.value <= 0.0) ==> r == Step(s, InvalidAmount)
    ensures r.outcome == UserNotFound <==> Authenticated(req) && UserIndex(s, req.caller.value).None?
    ensures r.outcome == AccountNotFound <==>
              Authenticated(req) && UserIndex(s, req.caller.value).Some? && !HasAccount(s, req)
    ensures r.outcome.BelowRegistrationFee? <==> HasAccount(s, req) && !Accepted(s, req)
    ensures r.outcome.BelowRegistrationFee? ==>
              r.outcome.fee == Plans.RegistrationFee(s.users[UserIndex(s, req.caller.value).value].plan)
    ensures r.outcome == DuplicateReference <==> Accepted(s, req) && TransactionIndex(s, OrderId(uuid)).Some?
    ensures r.store != s <==> Accepted(s, req) && TransactionIndex(s, OrderId(uuid)).None?
    ensures r.store == s || AppendedTransaction(s, r.store)
    ensures r.store == s <==>
              r.outcome in {NotAuthenticated, InvalidAmount, UserNotFound, AccountNotFound, DuplicateReference}
              || r.outcome.BelowRegistrationFee?
    ensures r.store != s ==>
              && TransactionIndex(s, OrderId(uuid)).None?
              && IsTopupRecord(s, req, uuid, newId, NewestTransaction(r.store))
              && (NewestTransaction(r.store).status == Failed <==> r.outcome.InitFailed?)
              && (!r.outcome.InitFailed? ==> NewestTransaction(r.store).status == Pending)
    ensures r.outcome == NotConfigured <==> r.store != s && !configured
    ensures r.outcome.GatewayError? <==> r.store != s && configured && reply.VirtualAccountThrown?
    ensures r.outcome.GatewayError? ==> r.outcome.code == ErrorStatus(reply.httpStatus)
    ensures r.outcome.Initialized? <==>
              r.store != s && configured && reply.VirtualAccountAnswered? && reply.code == 200 && reply.status
    ensures r.outcome.InitFailed? <==>
              r.store != s && configured && reply.VirtualAccountAnswered? && !(reply.code == 200 && reply.status)
    ensures r.outcome.Initialized? || r.outcome.InitFailed? || r.outcome.GatewayError? ==>
              r.outcome.request == InitRequest(req.amount.value, OrderId(uuid))
    ensures r.outcome.Initialized? ==> reply == VirtualAccountAnswered(200, true)
  {
    if req.caller.None? then Step(s, NotAuthenticated)
    else if req.amount.None? || req.amount.value <= 0.0 then Step(s, InvalidAmount)
    else
      var parsed := req.amount.value;
      match UserIndex(s, req.caller.value)
      case None => Step(s, UserNotFound)
      case Some(u) =>
        var user := s.users[u];
        match FirstAccountIndex(s, user.id)
        case None => Step(s, AccountNotFound)
        case Some(a) =>
          var fee := Plans.RegistrationFee(user.plan);
          if !user.registrationPaid && parsed < fee then Step(s, BelowRegistrationFee(fee))
          else
            var reference := OrderId(uuid);
            if TransactionIndex(s, reference).Some? then Step(s, DuplicateReference)
            else
              var record := Transaction(newId, reference, parsed, "topup", Pending, "alatpay", s.accounts[a].id, None);
              var created := s.(transactions := s.transactions + [record]);
              var request := InitRequest(parsed, reference);
              if !configured then Step(created, NotConfigured)
              else match reply
                case VirtualAccountThrown(code) => Step(created, GatewayError(ErrorStatus(code), request))
                case VirtualAccountAnswered(code, ok) =>
                  if code == 200 && ok then Step(created, Initialized(request))
                  else Step(s.(transactions := s.transactions + [record.(status := Failed)]), InitFailed(request))
  }
}

=== FILE: alatpay_topup_verify.dfy ===
/** `POST /api/alatpay/topup-verify`: verifies an ALATPay bank-transfer
    top-up and credits the wallet once, deducting the plan's registration fee
    from the stored amount while the user is unregistered. */
module AlatpayTopupVerify {
  import opened Base
  import opened Ledger
  import opened Gateways
  import Plans

  /** `caller` is the userId of the session token, `None` without a token. */
  datatype Request = Request(transactionId: Option<string>, orderId: Option<string>, caller: Option<UserId>)

  datatype Outcome =
    | MissingIdentifiers
    | NotAuthenticated
    | RecordNotFound
    | AlreadyProcessed(amount: real, reference: Option<string>, userId: UserId)
    | Credited(amount: real, creditedAmount: real, registrationFeeDeducted: real, reference: Option<string>, userId: UserId)
    /** the gateway said no: falsy status, data.status not "completed", or too small an amount */
    | NotCompleted
    /** the gateway call threw, or its reply had no data */
    | CouldNotVerify
    /** the record's account or user is missing (the foreign keys rule this out) */
    | ServerError

  function HttpStatus(o: Outcome): int
  {
    match o
    case MissingIdentifiers => 400
    case NotAuthenticated => 401
    case RecordNotFound => 404
    case AlreadyProcessed(_, _, _) => 200
    case Credited(_, _, _, _, _) => 200
    case NotCompleted => 400
    case CouldNotVerify => 400
    case ServerError => 500
  }

  /** `findFirst({ where: { reference: orderId } })`. The ORM drops a filter
      whose value is undefined, so without an orderId the table's first row is
      loaded. transactionId is never used for the lookup. */
  function LookupIndex(s: Store, orderId: Option<string>): (r: Option<nat>)
    ensures r.Some? ==> r.value < |s.transactions|
    ensures orderId.Some? && r.Some? ==> s.transactions[r.value].reference == orderId.value
    ensures orderId.Some? && r.None? ==> forall j :: 0 <= j < |s.transactions| ==> s.transactions[j].reference != orderId.value
    ensures orderId.None? ==> (r.Some? <==> |s.transactions| > 0) && (r.Some? ==> r.value == 0)
  {
    match orderId
    case Some(reference) => TransactionIndex(s, reference)
    case None => if |s.transactions| > 0 then Some(0) else None
  }

  /** The verdict the route credits on: a truthy reply status, data.status
      "completed", and at least the stored amount. */
  predicate Completed(reply: BankTransferReply, stored: real)
  {
    && reply.BankTransferAnswered?
    && reply.status
    && reply.data.Some?
    && reply.data.value.status == "completed"
    && reply.data.value.amount >= stored
  }

  /** An identifier and a session, and the lookup loads a record that is not
      yet successful. */
  ghost predicate Loaded(s: Store, req: Request)
  {
    && (Present(req.transactionId) || Present(req.orderId))
    && req.caller.Some?
    && LookupIndex(s, req.orderId).Some?
    && s.transactions[LookupIndex(s, req.orderId).value].status != Successful
  }

  /** Everything the route checks before asking the gateway holds: an
      identifier, a session, a loaded record that is not yet successful, and
      that record's account and user. */
  ghost predicate Creditable(s: Store, req: Request)
  {
    && Loaded(s, req)
    && var tx := s.transactions[LookupIndex(s, req.orderId).value];
    && AccountIndex(s, tx.accountId).Some?
    && UserIndex(s, s.accounts[AccountIndex(s, tx.accountId).value].userId).Some?
  }

  /** Balance, status, latch and notification writes of a credit, applied as
      one step to the loaded transaction `t`, its account `a` and its user `u`. */
  function ApplyCredit(s: Store, t: nat, a: nat, u: nat, platformReference: string, reference: Option<string>): Step<Outcome>
    requires t < |s.transactions| && a < |s.accounts| && u < |s.users|
  {
    var tx := s.transactions[t];
    var user := s.users[u];
    var fee := Plans.RegistrationFee(user.plan);
    var deducted := !user.registrationPaid;
    var credit := if deducted then tx.amount - fee else tx.amount;
    var welcome := if deducted then [RegistrationFeePaid(fee)] else [];
    var notice := WalletCredited(credit, if deducted then Some(FeeDeduction(fee, tx.amount)) else None);
    var user' := user.(registrationPaid := true, notifications := user.notifications + welcome + [notice]);
    var s' := s.(
      accounts := CreditAccount(s.accounts, a, credit),
      transactions := s.transactions[t := tx.(status := Successful, platformReference := Some(platformReference))],
      users := s.users[u := user']);
    Step(s', Credited(tx.amount, credit, if deducted then fee else 0.0, reference, user.id))
  }

  /** The credit step: the wallet gets the stored amount, less the plan's fee
      (plan A's for an unknown plan) exactly when the user was unregistered;
      the fee sets the latch; the record becomes successful. */
  function Verify(s: Store, req: Request, reply: BankTransferReply): (r: Step<Outcome>)
    ensures !Present(req.transactionId) && !Present(req.orderId) ==> r == Step(s, MissingIdentifiers)
    ensures r.outcome.MissingIdentifiers? <==> !Present(req.transactionId) && !Present(req.orderId)
    ensures r.outcome.NotAuthenticated? <==> (Present(req.transactionId) || Present(req.orderId)) && req.caller.None?
    ensures r.outcome.RecordNotFound? <==>
              (Present(req.transactionId) || Present(req.orderId)) && req.caller.Some? && LookupIndex(s, req.orderId).None?
    ensures r.outcome.ServerError? <==> Loaded(s, req) && !Creditable(s, req)
    ensures r.outcome.CouldNotVerify? <==>
              && Creditable(s, req)
              && (reply.BankTransferThrown? || (reply.BankTransferAnswered? && reply.status && reply.data.None?))
    ensures r.outcome.NotCompleted? <==>
              && Creditable(s, req) && reply.BankTransferAnswered?
              && (reply.status ==> reply.data.Some?)
              && !Completed(reply, s.transactions[LookupIndex(s, req.orderId).value].amount)
    ensures !r.outcome.Credited? ==> r.store == s
    ensures r.outcome.AlreadyProcessed? <==>
              && (Present(req.transactionId) || Present(req.orderId)) && req.caller.Some?
              && LookupIndex(s, req.orderId).Some? && s.transactions[LookupIndex(s, req.orderId).value].status == Successful
    ensures r.outcome.AlreadyProcessed? ==>
              && r.outcome.amount == s.transactions[LookupIndex(s, req.orderId).value].amount
              && r.outcome.reference == req.orderId && r.outcome.userId == req.caller.value
    ensures r.outcome.Credited? <==>
              Creditable(s, req) && Completed(reply, s.transactions[LookupIndex(s, req.orderId).value].amount)
    ensures r.outcome.Credited? ==> CreditEffect(s, req, reply, r)
    ensures LatchKept(s, r.store)
  {
    if !Present(req.transactionId) && !Present(req.orderId) then Step(s, MissingIdentifiers)
    else if req.caller.None? then Step(s, NotAuthenticated)
    else match LookupIndex(s, req.orderId)
    case None => Step(s, RecordNotFound)
    case Some(t) =>
      var tx := s.transactions[t];
      if tx.status == Successful then Step(s, AlreadyProcessed(tx.amount, req.orderId, req.caller.value))
      else match AccountIndex(s, tx.accountId)
      case None => Step(s, ServerError)
      case Some(a) =>
        match UserIndex(s, s.accounts[a].userId)
        case None => Step(s, ServerError)
        case Some(u) =>
          match reply
          case BankTransferThrown => Step(s, CouldNotVerify)
          case BankTransferAnswered(ok, data) =>
            if !ok then Step(s, NotCompleted)
            else if data.None? then Step(s, CouldNotVerify)
            else if data.value.status != "completed" || data.value.amount < tx.amount then Step(s, NotCompleted)
            else
              ApplyCredit(s, t, a, u, data.value.transactionId, req.orderId)
  }

  /** What a credit did, stated over the store before and after: the loaded
      record moved from not-successful to successful, the gateway had
      confirmed at least its amount, the amount split into credit plus fee
      (fee exactly when the owner was unregistered), the owner's account
      gained the credit and the owner is now registered; nothing else in the
      store moved. */
  ghost predicate CreditEffect(s: Store, req: Request, reply: BankTransferReply, r: Step<Outcome>)
    requires r.outcome.Credited?
  {
    var o := r.outcome;
    var s' := r.store;
    && req.caller.Some?
    && LookupIndex(s, req.orderId).Some?
    && var t := LookupIndex(s, req.orderId).value;
    && t < |s.transactions|
    && var tx := s.transactions[t];
    && tx.status != Successful
    && Completed(reply, tx.amount)
    && AccountIndex(s, tx.accountId).Some?
    && var a := AccountIndex(s, tx.accountId).value;
    && a < |s.accounts|
    && UserIndex(s, s.accounts[a].userId).Some?
    && var u := UserIndex(s, s.accounts[a].userId).value;
    && u < |s.users|
    && o.amount == tx.amount
    && o.reference == req.orderId
    && o.userId == s.users[u].id
    && o.creditedAmount + o.registrationFeeDeducted == tx.amount
    && (s.users[u].registrationPaid ==> o.registrationFeeDeducted == 0.0)
    && (!s.users[u].registrationPaid ==> o.registrationFeeDeducted == Plans.RegistrationFee(s.users[u].plan))
    && |s'.transactions| == |s.transactions|
    && s'.transactions[t] == tx.(status := Successful, platformReference := Some(reply.data.value.transactionId))
    && (forall j :: 0 <= j < |s.transactions| && j != t ==> s'.transactions[j] == s.transactions[j])
    && s'.accounts == CreditAccount(s.accounts, a, o.creditedAmount)
    && |s'.users| == |s.users|
    && s'.users[u] == s.users[u].(registrationPaid := true, notifications := s'.users[u].notifications)
    && s'.users[u].notifications == s.users[u].notifications
         + (if s.users[u].registrationPaid then [] else [RegistrationFeePaid(o.registrationFeeDeducted)])
         + [WalletCredited(o.creditedAmount,
              if s.users[u].registrationPaid then None else Some(FeeDeduction(o.registrationFeeDeducted, tx.amount)))]
    && (forall j :: 0 <= j < |s.users| && j != u ==> s'.users[j] == s.users[j])
    && s'.payments == s.payments
    && s'.subscriptions == s.subscriptions
    && s'.settlementAccounts == s.settlementAccounts
    && s'.nextSettlements == s.nextSettlements
    && s'.paidSettlements == s.paidSettlements
    && s'.packages == s.packages
  }

  /** The lookup only depends on the references, so writes that keep every
      reference in place load the same row again. */
  lemma LookupStable(s: Store, s': Store, orderId: Option<string>)
    requires |s'.transactions| == |s.transactions|
    requires forall j :: 0 <= j < |s.transactions| ==> s'.transactions[j].reference == s.transactions[j].reference
    ensures LookupIndex(s', orderId) == LookupIndex(s, orderId)
  {
    if orderId.Some? {
      TransactionIndexStable(s, s', orderId.value);
    }
  }

  /** A credit raises the sum of all balances by exactly the credited amount;
      every other outcome leaves it alone. */
  lemma VerifyBalance(s: Store, req: Request, reply: BankTransferReply)
    ensures var r := Verify(s, req, reply);
            TotalBalance(r.store.accounts)
              == TotalBalance(s.accounts) + if r.outcome.Credited? then r.outcome.creditedAmount else 0.0
  {
    var r := Verify(s, req, reply);
    if r.outcome.Credited? {
      var t := LookupIndex(s, req.orderId).value;
      var a := AccountIndex(s, s.transactions[t].accountId).value;
      TotalBalanceUpdate(s.accounts, a, s.accounts[a].(balance := s.accounts[a].balance + r.outcome.creditedAmount));
    }
  }

  /** Idempotence: once a call has credited, the next call for the same
      orderId (with any gateway reply) reports alreadyProcessed and writes
      nothing. */
  lemma VerifyIdempotent(s: Store, req: Request, reply: BankTransferReply, req2: Request, reply2: BankTransferReply)
    requires Verify(s, req, reply).outcome.Credited?
    requires req2.orderId == req.orderId && req2.caller.Some?
    requires Present(req2.transactionId) || Present(req2.orderId)
    ensures var s1 := Verify(s, req, reply).store;
            var r2 := Verify(s1, req2, reply2);
            r2.store == s1 && r2.outcome.AlreadyProcessed?
            && r2.outcome.amount == Verify(s, req, reply).outcome.amount
  {
    var s1 := Verify(s, req, reply).store;
    LookupStable(s, s1, req.orderId);
  }

  /** Runs the route once per (request, reply) pair, in order, and counts the
      calls that credited. */
  function Replay(s: Store, calls: seq<(Request, BankTransferReply)>): (Store, nat)
    decreases |calls|
  {
    if |calls| == 0 then (s, 0)
    else
      var first := Verify(s, calls[0].0, calls[0].1);
      var rest := Replay(first.store, calls[1..]);
      (rest.0, rest.1 + if first.outcome.Credited? then 1 else 0)
  }

  /** Once the record an orderId loads is successful, no further call for that
      orderId writes anything or credits. */
  lemma {:induction false} ReplayAfterSuccess(s: Store, orderId: Option<string>, calls: seq<(Request, BankTransferReply)>)
    requires LookupIndex(s, orderId).Some?
    requires s.transactions[LookupIndex(s, orderId).value].status == Successful
    requires forall k :: 0 <= k < |calls| ==> calls[k].0.orderId == orderId
    ensures Replay(s, calls) == (s, 0)
  {
    if |calls| > 0 {
      assert calls[0].0.orderId == orderId;
      assert !Verify(s, calls[0].0, calls[0].1).outcome.Credited?;
      ReplayAfterSuccess(s, orderId, calls[1..]);
    }
  }

  /** At most one credit per orderId: however many times the route is called
      for one orderId, and whatever the gateway answers each time, the wallet
      is credited at most once. */
  lemma {:induction false} AtMostOneCredit(s: Store, orderId: Option<string>, calls: seq<(Request, BankTransferReply)>)
    requires forall k :: 0 <= k < |calls| ==> calls[k].0.orderId == orderId
    ensures Replay(s, calls).1 <= 1
  {
    if |calls| > 0 {
      var first := Verify(s, calls[0].0, calls[0].1);
      if first.outcome.Credited? {
        LookupStable(s, first.store, orderId);
        ReplayAfterSuccess(first.store, orderId, calls[1..]);
      } else {
        AtMostOneCredit(s, orderId, calls[1..]);
      }
    }
  }
}

=== FILE: base.dfy ===
/** Small helpers shared by the model: an Option type, the ORM's "first
    matching row" lookup, row filtering and ordering by a key, and the
    JavaScript truthiness and slicing of request strings. */
module Base {

  datatype Option<+T> = None | Some(value: T)

  /** Index of the first element satisfying `p`: a `findFirst`/`findUnique`
      over a table kept in insertion order. */
  function FirstIndex<T>(s: seq<T>, p: T -> bool): (r: Option<nat>)
    ensures r.Some? ==> r.value < |s| && p(s[r.value])
    ensures r.Some? ==> forall j :: 0 <= j < r.value ==> !p(s[j])
    ensures r.None? <==> forall j :: 0 <= j < |s| ==> !p(s[j])
  {
    if |s| == 0 then None
    else if p(s[0]) then Some(0)
    else match FirstIndex(s[1..], p)
      case None => None
      case Some(i) => Some(i + 1)
  }

  /** A lookup depends only on where the predicate holds: two tables of the
      same length on which `p` and `q` agree pointwise give the same index. */
  lemma {:induction false} FirstIndexAgrees<T, U>(s: seq<T>, p: T -> bool, t: seq<U>, q: U -> bool)
    requires |s| == |t|
    requires forall j :: 0 <= j < |s| ==> p(s[j]) == q(t[j])
    ensures FirstIndex(s, p) == FirstIndex(t, q)
  {
    if |s| > 0 && !p(s[0]) {
      FirstIndexAgrees(s[1..], p, t[1..], q);
    }
  }

  /** Appending a row no earlier row matches is found only when nothing
      earlier matches, and then at its own position. */
  lemma FirstIndexAppend<T>(s: seq<T>, x: T, p: T -> bool)
    requires forall j :: 0 <= j < |s| ==> !p(s[j])
    ensures FirstIndex(s + [x], p) == if p(x) then Some(|s|) else None
  {
    forall j | 0 <= j < |s|
      ensures (s + [x])[j] == s[j]
    {
    }
    assert (s + [x])[|s|] == x;
  }

  /** The rows of `s` satisfying `p`, in their original order (a `where`
      clause). */
  function Filter<T(!new)>(s: seq<T>, p: T -> bool): (r: seq<T>)
    ensures |r| <= |s|
    ensures forall x :: multiset(r)[x] == if p(x) then multiset(s)[x] else 0
  {
    if |s| == 0 then []
    else
      var rest := Filter(s[1..], p);
      assert s == [s[0]] + s[1..];
      if p(s[0]) then [s[0]] + rest else rest
  }

  /** Filtering distributes over appending one row. */
  lemma {:induction false} FilterAppend<T(!new)>(s: seq<T>, x: T, p: T -> bool)
    ensures Filter(s + [x], p) == Filter(s, p) + (if p(x) then [x] else [])
  {
    if |s| == 0 {
      assert s + [x] == [x];
      assert Filter([x], p) == (if p(x) then [x] else []) + Filter([x][1..], p);
    } else {
      assert (s + [x])[1..] == s[1..] + [x];
      FilterAppend(s[1..], x, p);
    }
  }

  /** `s` is ordered by `key`, smallest first. */
  ghost predicate SortedBy<T>(s: seq<T>, key: T -> int)
  {
    forall i, j :: 0 <= i < j < |s| ==> key(s[i]) <= key(s[j])
  }

  /** Inserts `x` into the sorted `s` before the first element whose key is
      not smaller. */
  function Insert<T>(x: T, s: seq<T>, key: T -> int): (r: seq<T>)
    requires SortedBy(s, key)
    ensures SortedBy(r, key)
    ensures multiset(r) == multiset(s) + multiset{x}
  {
    if |s| == 0 then [x]
    else if key(x) <= key(s[0]) then [x] + s
    else
      var rest := Insert(x, s[1..], key);
      assert s == [s[0]] + s[1..];
      assert forall k :: 0 <= k < |rest| ==> key(s[0]) <= key(rest[k]) by {
        forall k | 0 <= k < |rest|
          ensures key(s[0]) <= key(rest[k])
        {
          assert rest[k] in multiset(rest);
          assert rest[k] == x || rest[k] in multiset(s[1..]);
          if rest[k] != x {
            var m :| 0 <= m < |s[1..]| && s[1..][m] == rest[k];
            assert s[m + 1] == rest[k];
          }
        }
      }
      [s[0]] + rest
  }

  /** The rows of `s` reordered by `key`, smallest first (an `orderBy`). */
  function SortBy<T>(s: seq<T>, key: T -> int): (r: seq<T>)
    ensures SortedBy(r, key)
    ensures multiset(r) == multiset(s)
  {
    if |s| == 0 then []
    else
      assert s == [s[0]] + s[1..];
      Insert(s[0], SortBy(s[1..], key), key)
  }

  /** A request string that JavaScript treats as truthy: present and non-empty. */
  predicate Present(s: Option<string>)
  {
    s.Some? && s.value != ""
  }

  /** `a || b` on two optional request strings. */
  function OrElse(a: Option<string>, b: Option<string>): (r: Option<string>)
    ensures Present(a) ==> r == a
    ensures !Present(a) ==> r == b
  {
    if Present(a) then a else b
  }

  /** `s.slice(0, n)`. */
  function Prefix(s: string, n: nat): (r: string)
    ensures |r| == if |s| < n then |s| else n
    ensures r <= s
  {
    if |s| < n then s else s[..n]
  }
}

=== FILE: contact.dfy ===
/** `POST /api/contact`: the site's contact form. A filled honeypot field is
    refused before anything else; each client IP may then submit once per
    30 seconds (the time is recorded even when validation refuses the
    request); name, email and message are required and the email must have
    the shape `local@domain.tld`; the mail is sent and the message logged,
    a failed log not affecting the reply. */
module Contact {
  import opened Base

  /** The minimum spacing of two submissions from one IP, in milliseconds. */
  const Window: int := 30_000

  /** The characters JavaScript's `\s` and `trim()` treat as white space. */
  predicate IsSpace(c: char)
  {
    || c == '\t' || c == '\n' || c == '\U{000B}' || c == '\U{000C}' || c == '\r' || c == ' '
    || c == '\U{00A0}' || c == '\U{1680}' || ('\U{2000}' <= c <= '\U{200A}')
    || c == '\U{2028}' || c == '\U{2029}' || c == '\U{202F}' || c == '\U{205F}' || c == '\U{3000}' || c == '\U{FEFF}'
  }

  /** `split(",")[0]`: everything before the first comma. */
  function FirstField(s: string): (r: string)
    ensures |r| <= |s| && r == s[..|r|]
    ensures ',' !in r
    ensures |r| < |s| ==> s[|r|] == ','
  {
    if |s| == 0 || s[0] == ',' then ""
    else [s[0]] + FirstField(s[1..])
  }

  /** Drops the leading white space. */
  function TrimStart(s: string): (r: string)
    ensures |r| <= |s| && r == s[|s| - |r|..]
    ensures forall j :: 0 <= j < |s| - |r| ==> IsSpace(s[j])
    ensures |r| > 0 ==> !IsSpace(r[0])
  {
    if |s| > 0 && IsSpace(s[0]) then TrimStart(s[1..]) else s
  }

  /** Drops the trailing white space. */
  function TrimEnd(s: string): (r: string)
    ensures |r| <= |s| && r == s[..|r|]
    ensures forall j :: |r| <= j < |s| ==> IsSpace(s[j])
    ensures |r| > 0 ==> !IsSpace(r[|r| - 1])
  {
    if |s| > 0 && IsSpace(s[|s| - 1]) then TrimEnd(s[..|s| - 1]) else s
  }

  /** How many white-space characters `trim()` cuts from the front. */
  function LeadingSpace(s: string): (n: nat)
    ensures n <= |s|
    ensures TrimStart(s) == s[n..]
  {
    |s| - |TrimStart(s)|
  }

  /** `trim()`: `s` without its leading and trailing white space. The result
      is the slice of `s` after its leading white space; only white space
      lies outside it. */
  function Trim(s: string): (r: string)
    ensures LeadingSpace(s) + |r| <= |s| && r == s[LeadingSpace(s)..LeadingSpace(s) + |r|]
    ensures forall j :: 0 <= j < LeadingSpace(s) ==> IsSpace(s[j])
    ensures forall j :: LeadingSpace(s) + |r| <= j < |s| ==> IsSpace(s[j])
    ensures |r| > 0 ==> !IsSpace(r[0]) && !IsSpace(r[|r| - 1])
  {
    var t := TrimStart(s);
    var r := TrimEnd(t);
    assert |r| > 0 ==> r[0] == t[0];
    r
  }

  /** `trim()` gives the empty string exactly when `s` is all white space. */
  lemma TrimEmpty(s: string)
    ensures (forall j :: 0 <= j < |s| ==> IsSpace(s[j])) <==> Trim(s) == ""
  {
    var a := LeadingSpace(s);
    var r := Trim(s);
    if |r| > 0 {
      assert s[a] == r[0];
    }
  }

  /** Every character of the trimmed text comes from `s`. */
  lemma TrimKeepsCharacters(s: string, c: char)
    requires c in Trim(s)
    ensures c in s
  {
    var a := LeadingSpace(s);
    var r := Trim(s);
    var j :| 0 <= j < |r| && r[j] == c;
    assert s[a + j] == c;
  }

  /** `x-forwarded-for?.split(",")[0]?.trim() || x-real-ip || "unknown"`. */
  function ClientIp(forwardedFor: Option<string>, realIp: Option<string>): (ip: string)
    ensures forwardedFor.Some? && Trim(FirstField(forwardedFor.value)) != "" ==>
              ip == Trim(FirstField(forwardedFor.value)) && ',' !in ip
    ensures (forwardedFor.None? || Trim(FirstField(forwardedFor.value)) == "") && Present(realIp) ==> ip == realIp.value
    ensures (forwardedFor.None? || Trim(FirstField(forwardedFor.value)) == "") && !Present(realIp) ==> ip == "unknown"
    ensures ip != ""
  {
    var first := if forwardedFor.Some? then Trim(FirstField(forwardedFor.value)) else "";
    if first != "" then
      assert ',' !in first by {
        if ',' in first {
          TrimKeepsCharacters(FirstField(forwardedFor.value), ',');
        }
      }
      first
    else if Present(realIp) then realIp.value
    else "unknown"
  }

  /** A comma-free field followed by a comma and anything is split back off. */
  lemma {:induction false} FirstFieldOfList(field: string, rest: string)
    requires ',' !in field
    ensures FirstField(field + "," + rest) == field
  {
    if |field| > 0 {
      assert (field + "," + rest)[1..] == field[1..] + "," + rest;
      FirstFieldOfList(field[1..], rest);
    }
  }

  /** Text without white space at either end is its own trim. */
  lemma TrimOfTrimmed(s: string)
    requires |s| > 0 && !IsSpace(s[0]) && !IsSpace(s[|s| - 1])
    ensures Trim(s) == s
  {
  }

  /** A proxy chain `client, proxy…` in `x-forwarded-for` yields the client:
      the first hop is the IP the limiter keys on, whatever `x-real-ip` says. */
  lemma ClientIpFirstHop(client: string, proxies: string, realIp: Option<string>)
    requires client != "" && ',' !in client && !IsSpace(client[0]) && !IsSpace(client[|client| - 1])
    ensures ClientIp(Some(client + "," + proxies), realIp) == client
  {
    FirstFieldOfList(client, proxies);
    TrimOfTrimmed(client);
  }

  /** A character `[^\s@]` accepts. */
  predicate Plain(c: char)
  {
    !IsSpace(c) && c != '@'
  }

  /** `[^\s@]+`. */
  predicate PlainRun(t: string)
  {
    |t| > 0 && forall j :: 0 <= j < |t| ==> Plain(t[j])
  }

  /** `/^[^\s@]+@[^\s@]+\.[^\s@]+$/.test(s)`: some `@` at `i` and `.` at `k`
      split `s` into three non-empty runs without white space or `@`. */
  predicate EmailShape(s: string)
  {
    exists i, k | 0 <= i < k < |s| :: ShapeAt(s, i, k)
  }

  predicate ShapeAt(s: string, i: int, k: int)
    requires 0 <= i < k < |s|
  {
    PlainRun(s[..i]) && s[i] == '@' && PlainRun(s[i + 1..k]) && s[k] == '.' && PlainRun(s[k + 1..])
  }

  /** The same split, stated on positions: every character but the `@` is
      plain, and the `.` lies strictly between the `@` and the last
      character. */
  lemma ShapeAtByPositions(s: string, i: int, k: int)
    requires 0 <= i < k < |s|
    ensures ShapeAt(s, i, k) <==>
              && 0 < i && i + 1 < k && k + 1 < |s| && s[i] == '@' && s[k] == '.'
              && forall j :: 0 <= j < |s| && j != i ==> Plain(s[j])
  {
    if ShapeAt(s, i, k) {
      forall j | 0 <= j < |s| && j != i
        ensures Plain(s[j])
      {
        if j < i {
          assert s[..i][j] == s[j];
        } else if j < k {
          assert s[i + 1..k][j - i - 1] == s[j];
        } else if j > k {
          assert s[k + 1..][j - k - 1] == s[j];
        }
      }
    }
  }

  /** A single left-to-right scan deciding the email shape: no white space
      anywhere, exactly one `@` and not first, and a `.` after the character
      following it but before the last character. */
  method MatchEmail(s: string) returns (ok: bool)
    ensures ok <==> EmailShape(s)
  {
    var at := -1;
    var n := 0;
    while n < |s|
      invariant 0 <= n <= |s|
      invariant -1 <= at < n
      invariant forall j :: 0 <= j < n ==> !IsSpace(s[j])
      invariant at == -1 ==> forall j :: 0 <= j < n ==> s[j] != '@'
      invariant at >= 0 ==> s[at] == '@' && forall j :: 0 <= j < n && j != at ==> s[j] != '@'
    {
      if IsSpace(s[n]) {
        NoShapeWith(s, n);
        return false;
      }
      if s[n] == '@' {
        if at >= 0 {
          NoShapeWithTwoAts(s, at, n);
          return false;
        }
        at := n;
      }
      n := n + 1;
    }
    if at <= 0 {
      forall i, k | 0 <= i < k < |s|
        ensures !ShapeAt(s, i, k)
      {
        ShapeAtByPositions(s, i, k);
      }
      return false;
    }
    var k := at + 2;
    while k < |s| - 1
      invariant at + 2 <= k
      invariant forall m :: at + 2 <= m < k && m < |s| ==> s[m] != '.'
    {
      if s[k] == '.' {
        ShapeAtByPositions(s, at, k);
        return true;
      }
      k := k + 1;
    }
    forall i, m | 0 <= i < m < |s|
      ensures !ShapeAt(s, i, m)
    {
      ShapeAtByPositions(s, i, m);
    }
    return false;
  }

  /** No split exists once some character is white space. */
  lemma NoShapeWith(s: string, n: int)
    requires 0 <= n < |s| && IsSpace(s[n])
    ensures !EmailShape(s)
  {
    forall i, k | 0 <= i < k < |s|
      ensures !ShapeAt(s, i, k)
    {
      ShapeAtByPositions(s, i, k);
    }
  }

  /** No split exists once two characters are `@`. */
  lemma NoShapeWithTwoAts(s: string, a: int, b: int)
    requires 0 <= a < b < |s| && s[a] == '@' && s[b] == '@'
    ensures !EmailShape(s)
  {
    forall i, k | 0 <= i < k < |s|
      ensures !ShapeAt(s, i, k)
    {
      ShapeAtByPositions(s, i, k);
    }
  }

  /** A logged contact message. */
  datatype Message = Message(name: string, email: string, message: string)

  /** The in-memory per-IP map of last submission times, and the message log. */
  datatype State = State(recent: map<string, int>, messages: seq<Message>)

  /** The body's fields and the two forwarding headers, `None` when absent. */
  datatype Request = Request(
    name: Option<string>,
    email: Option<string>,
    message: Option<string>,
    website: Option<string>,
    forwardedFor: Option<string>,
    realIp: Option<string>)

  datatype Outcome = Spam | TooManyRequests | MissingFields | InvalidEmail | Sent | MailFailed

  function HttpStatus(o: Outcome): int
  {
    match o
    case Spam => 400
    case TooManyRequests => 429
    case MissingFields => 400
    case InvalidEmail => 400
    case Sent => 200
    case MailFailed => 500
  }

  datatype ContactStep = ContactStep(state: State, outcome: Outcome)

  /** `last && now - last < 30000`: a stored, non-zero time less than the
      window ago. */
  predicate RateLimited(recent: map<string, int>, ip: string, now: int)
  {
    ip in recent && recent[ip] != 0 && now - recent[ip] < Window
  }

  /** The request got past the honeypot and the rate limiter. */
  predicate Admitted(st: State, req: Request, now: int)
  {
    !Present(req.website) && !RateLimited(st.recent, ClientIp(req.forwardedFor, req.realIp), now)
  }

  /** Name, email and message are all present and non-empty. */
  predicate Complete(req: Request)
  {
    Present(req.name) && Present(req.email) && Present(req.message)
  }

  /** `now` is `Date.now()`; `mailSent` says whether the mail transport
      accepted the message and `logged` whether the database insert worked. */
  function Submit(st: State, req: Request, now: int, mailSent: bool, logged: bool): (r: ContactStep)
    ensures Present(req.website) ==> r == ContactStep(st, Spam)
    ensures r.outcome == Spam <==> Present(req.website)
    ensures r.outcome == MissingFields <==> Admitted(st, req, now) && !Complete(req)
    ensures r.outcome == InvalidEmail <==> Admitted(st, req, now) && Complete(req) && !EmailShape(req.email.value)
    ensures r.outcome == Sent <==> Admitted(st, req, now) && Complete(req) && EmailShape(req.email.value) && mailSent
    ensures r.outcome == MailFailed <==> Admitted(st, req, now) && Complete(req) && EmailShape(req.email.value) && !mailSent
    ensures r.outcome == Sent && logged ==>
              r.state.messages == st.messages + [Message(req.name.value, req.email.value, req.message.value)]
    ensures var ip := ClientIp(req.forwardedFor, req.realIp);
            && (r.outcome == TooManyRequests <==> !Present(req.website) && RateLimited(st.recent, ip, now))
            && (r.outcome == TooManyRequests ==> r.state == st)
            && (r.outcome != Spam && r.outcome != TooManyRequests ==> r.state.recent == st.recent[ip := now])
    ensures r.outcome == MissingFields ==> !(Present(req.name) && Present(req.email) && Present(req.message))
    ensures r.outcome == InvalidEmail ==> Present(req.email) && !EmailShape(req.email.value)
    ensures r.outcome in {Sent, MailFailed} ==>
              && Present(req.name) && Present(req.email) && Present(req.message) && EmailShape(req.email.value)
              && (r.outcome == Sent <==> mailSent)
    ensures r.state.messages != st.messages ==>
              && r.outcome == Sent && logged
              && r.state.messages == st.messages + [Message(req.name.value, req.email.value, req.message.value)]
  {
    if Present(req.website) then ContactStep(st, Spam)
    else
      var ip := ClientIp(req.forwardedFor, req.realIp);
      if RateLimited(st.recent, ip, now) then ContactStep(st, TooManyRequests)
      else
        var stamped := st.(recent := st.recent[ip := now]);
        if !Present(req.name) || !Present(req.email) || !Present(req.message) then ContactStep(stamped, MissingFields)
        else if !EmailShape(req.email.value) then ContactStep(stamped, InvalidEmail)
        else if !mailSent then ContactStep(stamped, MailFailed)
        else if logged then
          ContactStep(stamped.(messages := st.messages + [Message(req.name.value, req.email.value, req.message.value)]), Sent)
        else ContactStep(stamped, Sent)
  }

  /** Whether the message log insert worked never changes the reply. */
  lemma LogFailureKeepsReply(st: State, req: Request, now: int, mailSent: bool)
    ensures Submit(st, req, now, mailSent, true).outcome == Submit(st, req, now, mailSent, false).outcome
    ensures Submit(st, req, now, mailSent, true).state.recent == Submit(st, req, now, mailSent, false).state.recent
  {
  }

  /** A second submission from the same IP less than 30 seconds after one that
      got past the honeypot is refused, whatever the first one's fate, unless
      the first came at time zero (a stored 0 is falsy). */
  lemma SecondWithinWindowRefused(st: State, req1: Request, req2: Request, now1: int, now2: int, sent: bool, logged: bool)
    requires !Present(req1.website) && !Present(req2.website)
    requires ClientIp(req1.forwardedFor, req1.realIp) == ClientIp(req2.forwardedFor, req2.realIp)
    requires now1 != 0 && now1 <= now2 < now1 + Window
    requires Submit(st, req1, now1, sent, logged).outcome != TooManyRequests
    ensures forall sent2: bool, logged2: bool ::
              Submit(Submit(st, req1, now1, sent, logged).state, req2, now2, sent2, logged2).outcome == TooManyRequests
  {
    var ip := ClientIp(req1.forwardedFor, req1.realIp);
    assert Submit(st, req1, now1, sent, logged).state.recent[ip] == now1;
  }
}

=== FILE: gateways.dfy ===
/** The replies of the payment gateways, as the routes read them. Each
    gateway call is an input to the route that makes it; a call that throws
    (network failure, or a non-2xx status for the axios client) is its own
    variant. */
module Gateways {
  import opened Base

  /** ALATPay bank-transfer transaction lookup: `status`, `data.status`,
      `data.amount`, `data.transactionId`. */
  datatype BankTransferData = BankTransferData(status: string, amount: real, transactionId: string)
  datatype BankTransferReply =
    | BankTransferThrown
    | BankTransferAnswered(status: bool, data: Option<BankTransferData>)

  /** ALATPay virtual-account creation: the HTTP status and the body's `status`. */
  datatype VirtualAccountReply =
    | VirtualAccountThrown(httpStatus: Option<int>)
    | VirtualAccountAnswered(code: int, status: bool)

  /** The request a top-up initialiser sends to its gateway. */
  datatype InitRequest = InitRequest(amount: real, reference: string)

  /** Paystack `transaction/verify`: `status`, `data.status`, `data.amount`
      (in kobo) and `data.reference`. */
  datatype PaystackTransaction = PaystackTransaction(status: string, amountKobo: int, reference: string)
  datatype PaystackVerifyReply =
    | PaystackVerifyThrown(httpStatus: Option<int>)
    | PaystackVerifyAnswered(status: bool, data: Option<PaystackTransaction>)

  /** Paystack `transaction/initialize`: `status` and
      `data.authorization_url` (empty when absent). */
  datatype PaystackInitData = PaystackInitData(authorizationUrl: string)
  datatype PaystackInitReply =
    | PaystackInitThrown(httpStatus: Option<int>)
    | PaystackInitAnswered(status: bool, data: Option<PaystackInitData>)

  /** ALATPay transaction lookup used for registration payments: the
      envelope `status` and `data.status` / `data.amount`. */
  datatype AlatTransaction = AlatTransaction(status: string, amount: Option<real>)
  datatype AlatTransactionReply =
    | AlatTransactionThrown
    | AlatTransactionAnswered(status: string, data: Option<AlatTransaction>)

  /** ALATPay checkout verification fetched by the webhook: `data.status`. */
  datatype CheckoutReply =
    | CheckoutUnreachable
    | CheckoutAnswered(dataStatus: Option<string>)

  /** `err.response?.status || 500`: the gateway's own status, unless it is
      missing or zero. */
  function ErrorStatus(httpStatus: Option<int>): (code: int)
    ensures code != 0
    ensures httpStatus.Some? && httpStatus.value != 0 ==> code == httpStatus.value
    ensures httpStatus.None? || httpStatus == Some(0) ==> code == 500
  {
    if httpStatus.Some? && httpStatus.value != 0 then httpStatus.value else 500
  }

  /** A status the route already answered with passes through unchanged:
      mapping a gateway failure twice gives what mapping it once gives. */
  lemma ErrorStatusIdempotent(httpStatus: Option<int>)
    ensures ErrorStatus(Some(ErrorStatus(httpStatus))) == ErrorStatus(httpStatus)
  {
  }

  /** `amount / 100`: kobo to naira. */
  function KoboToNaira(kobo: int): (naira: real)
    ensures naira * 100.0 == kobo as real
  {
    kobo as real / 100.0
  }
}

=== FILE: ledger.dfy ===
/** The persistent records the payment and settlement routes read and write,
    the store that holds them, and the lookups the routes perform. Every table
    is a sequence in insertion order; a `findFirst`/`findUnique` is the first
    matching row. */
module Ledger {
  import opened Base

  type UserId = int
  type AccountId = int

  /** Status strings the payment routes write. Other routes may store any
      string, so statuses stay strings. */
  const Pending: string := "pending"
  const Successful: string := "successful"
  const Failed: string := "failed"
  const PaymentSuccessful: string := "SUCCESSFUL"

  /** Entries pushed onto a user's notification list. */
  datatype Notification =
    | RegistrationFeePaid(fee: real)
    /** "Wallet credited with ₦credit", with the fee and the gross amount when a fee was deducted */
    | WalletCredited(credit: real, deduction: Option<FeeDeduction>)
    | PaymentReceived(amount: real)

  datatype FeeDeduction = FeeDeduction(fee: real, gross: real)

  /** `lastActivity` as far as the modelled routes write it. */
  datatype Activity = Unspecified | PaymentVerified(amount: real)

  datatype User = User(
    id: UserId,
    phone: string,
    plan: string,
    registrationPaid: bool,
    notifications: seq<Notification>,
    lastActivity: Activity)

  datatype Account = Account(id: AccountId, userId: UserId, accountNumber: string, balance: real)

  /** A wallet top-up record (`Transaction`). */
  datatype Transaction = Transaction(
    id: int,
    reference: string,
    amount: real,
    kind: string,
    status: string,
    paymentMethod: string,
    accountId: AccountId,
    platformReference: Option<string>)

  datatype Gateway = Alatpay | Paystack

  /** A registration-fee payment record (`Payment`); `verification` stands for
      the `verifiedAt` and gateway reply merged into its metadata. */
  datatype Payment = Payment(
    id: int,
    orderId: string,
    userId: UserId,
    amount: real,
    status: string,
    verification: Option<Verification>)

  datatype Verification = Verification(at: int, gateway: Gateway)

  datatype ThriftPackage = ThriftPackage(id: int, name: string, duration: int, profitPercentage: real)

  datatype Subscription = Subscription(
    id: int,
    userId: UserId,
    packageId: int,
    amountInvested: real,
    startDate: int,
    endDate: int,
    expectedReturn: real,
    actualReturn: Option<real>,
    status: string,
    createdAt: int)

  datatype SettlementAccount = SettlementAccount(
    id: int,
    userId: UserId,
    bankName: string,
    accountNumber: string,
    accountName: string,
    isDefault: bool,
    createdAt: int)

  /** Fields a settlement request carries through to the stored row unchanged. */
  datatype SettlementDetails = SettlementDetails(
    accountNumber: Option<string>,
    accountName: Option<string>,
    bankName: Option<string>,
    amount: Option<real>,
    notes: Option<string>)

  datatype NextSettlement = NextSettlement(
    id: int,
    userId: UserId,
    accountId: AccountId,
    details: SettlementDetails,
    scheduledDate: int,
    settlementCycle: Option<string>,
    priority: string,
    status: string)

  datatype PaidSettlement = PaidSettlement(
    id: int,
    userId: UserId,
    accountId: AccountId,
    details: SettlementDetails,
    settlementDate: int,
    reference: Option<string>,
    paymentMethod: Option<string>)

  datatype Store = Store(
    users: seq<User>,
    accounts: seq<Account>,
    transactions: seq<Transaction>,
    payments: seq<Payment>,
    packages: seq<ThriftPackage>,
    subscriptions: seq<Subscription>,
    settlementAccounts: seq<SettlementAccount>,
    nextSettlements: seq<NextSettlement>,
    paidSettlements: seq<PaidSettlement>)

  /** What a route hands back: the store after its writes and its reply. */
  datatype Step<O> = Step(store: Store, outcome: O)

  function UserIndex(s: Store, id: UserId): Option<nat>
  {
    FirstIndex(s.users, (u: User) => u.id == id)
  }

  function UserIndexByPhone(s: Store, phone: string): Option<nat>
  {
    FirstIndex(s.users, (u: User) => u.phone == phone)
  }

  function AccountIndex(s: Store, id: AccountId): Option<nat>
  {
    FirstIndex(s.accounts, (a: Account) => a.id == id)
  }

  /** `user.accounts[0]`: the user's first account in table order. */
  function FirstAccountIndex(s: Store, uid: UserId): Option<nat>
  {
    FirstIndex(s.accounts, (a: Account) => a.userId == uid)
  }

  /** The accounts `user.accounts` lists. */
  function AccountsOf(s: Store, uid: UserId): seq<Account>
  {
    Filter(s.accounts, (a: Account) => a.userId == uid)
  }

  /** `user.accounts.some((acc) => acc.id === accountId)`. */
  predicate OwnsAccount(s: Store, uid: UserId, accountId: AccountId)
  {
    exists a | a in AccountsOf(s, uid) :: a.id == accountId
  }

  function TransactionIndex(s: Store, reference: string): Option<nat>
  {
    FirstIndex(s.transactions, (t: Transaction) => t.reference == reference)
  }

  /** `balance + credit` written back to one account. */
  function CreditAccount(accounts: seq<Account>, i: nat, credit: real): (r: seq<Account>)
    requires i < |accounts|
    ensures |r| == |accounts| && r[i].balance == accounts[i].balance + credit
    ensures r[i] == accounts[i].(balance := r[i].balance)
    ensures forall j :: 0 <= j < |r| && j != i ==> r[j] == accounts[j]
  {
    accounts[i := accounts[i].(balance := accounts[i].balance + credit)]
  }

  /** The sum of all account balances. */
  function TotalBalance(accounts: seq<Account>): real
  {
    if |accounts| == 0 then 0.0 else accounts[0].balance + TotalBalance(accounts[1..])
  }

  /** Changing one account's balance changes the total by the same amount. */
  lemma {:induction false} TotalBalanceUpdate(accounts: seq<Account>, i: nat, a: Account)
    requires i < |accounts|
    ensures TotalBalance(accounts[i := a]) == TotalBalance(accounts) - accounts[i].balance + a.balance
  {
    if i > 0 {
      assert accounts[i := a][1..] == accounts[1..][i - 1 := a];
      TotalBalanceUpdate(accounts[1..], i - 1, a);
    }
  }

  /** A new account adds its balance to the total. */
  lemma {:induction false} TotalBalanceAppend(accounts: seq<Account>, a: Account)
    ensures TotalBalance(accounts + [a]) == TotalBalance(accounts) + a.balance
  {
    if |accounts| > 0 {
      assert (accounts + [a])[1..] == accounts[1..] + [a];
      TotalBalanceAppend(accounts[1..], a);
    }
  }

  /** The registration latch never goes from true to false, and no user row is
      added, removed or renumbered. */
  ghost predicate LatchKept(s: Store, s': Store)
  {
    && |s'.users| == |s.users|
    && forall i :: 0 <= i < |s.users| ==>
         s'.users[i].id == s.users[i].id && (s.users[i].registrationPaid ==> s'.users[i].registrationPaid)
  }

  lemma LatchKeptTransitive(s0: Store, s1: Store, s2: Store)
    requires LatchKept(s0, s1) && LatchKept(s1, s2)
    ensures LatchKept(s0, s2)
  {
  }

  /** Every table except the transactions is untouched. */
  ghost predicate OnlyTransactionsChanged(s: Store, s': Store)
  {
    s' == s.(transactions := s'.transactions)
  }

  /** `s'` is `s` with one row appended to the transactions. */
  ghost predicate AppendedTransaction(s: Store, s': Store)
  {
    && OnlyTransactionsChanged(s, s')
    && |s'.transactions| == |s.transactions| + 1
    && s'.transactions[..|s.transactions|] == s.transactions
  }

  /** The row a successful `AppendedTransaction` added. */
  function NewestTransaction(s': Store): Transaction
    requires |s'.transactions| > 0
  {
    s'.transactions[|s'.transactions| - 1]
  }

  /** Writes that keep every reference in place leave reference lookups alone. */
  lemma TransactionIndexStable(s: Store, s': Store, reference: string)
    requires |s'.transactions| == |s.transactions|
    requires forall j :: 0 <= j < |s.transactions| ==> s'.transactions[j].reference == s.transactions[j].reference
    ensures TransactionIndex(s', reference) == TransactionIndex(s, reference)
  {
    var p := (x: Transaction) => x.reference == reference;
    FirstIndexAgrees(s.transactions, p, s'.transactions, p);
  }

  /** Writes that keep every account id and owner in place leave account
      lookups alone. */
  lemma AccountIndexStable(s: Store, s': Store, id: AccountId)
    requires |s'.accounts| == |s.accounts|
    requires forall j :: 0 <= j < |s.accounts| ==> s'.accounts[j].id == s.accounts[j].id && s'.accounts[j].userId == s.accounts[j].userId
    ensures AccountIndex(s', id) == AccountIndex(s, id)
    ensures FirstAccountIndex(s', id) == FirstAccountIndex(s, id)
  {
    var p := (x: Account) => x.id == id;
    FirstIndexAgrees(s.accounts, p, s'.accounts, p);
    var q := (x: Account) => x.userId == id;
    FirstIndexAgrees(s.accounts, q, s'.accounts, q);
  }

  /** Writes that keep every user id and phone in place leave user lookups
      alone. */
  lemma UserIndexStable(s: Store, s': Store, id: UserId, phone: string)
    requires |s'.users| == |s.users|
    requires forall j :: 0 <= j < |s.users| ==> s'.users[j].id == s.users[j].id && s'.users[j].phone == s.users[j].phone
    ensures UserIndex(s', id) == UserIndex(s, id)
    ensures UserIndexByPhone(s', phone) == UserIndexByPhone(s, phone)
  {
    var p := (x: User) => x.id == id;
    FirstIndexAgrees(s.users, p, s'.users, p);
    var q := (x: User) => x.phone == phone;
    FirstIndexAgrees(s.users, q, s'.users, q);
  }
}

=== FILE: plans.dfy ===
/** The plan table (`PlanConfig`): each subscription plan's registration fee
    and account limit, and the fee lookup the payment routes perform. */
module Plans {
  import opened Base

  datatype PlanEntry = PlanEntry(name: string, amount: real, interval: string, accountLimit: int)

  /** `PlanConfig[plan]`: defined for the plans "A", "B" and "C" only. */
  function Lookup(plan: string): (r: Option<PlanEntry>)
    ensures r.Some? <==> plan == "A" || plan == "B" || plan == "C"
    ensures r.Some? ==> r.value.amount > 0.0 && r.value.accountLimit > 0
    ensures plan == "A" ==> r == Some(PlanEntry("Option A", 2500.0, "monthly", 100))
    ensures plan == "B" ==> r == Some(PlanEntry("Option B", 10000.0, "monthly", 500))
    ensures plan == "C" ==> r == Some(PlanEntry("Option C", 70000.0, "one-time", 1000))
  {
    if plan == "A" then Some(PlanEntry("Option A", 2500.0, "monthly", 100))
    else if plan == "B" then Some(PlanEntry("Option B", 10000.0, "monthly", 500))
    else if plan == "C" then Some(PlanEntry("Option C", 70000.0, "one-time", 1000))
    else None
  }

  /** Plan A's fee, the fallback of every fee lookup. */
  const DefaultFee: real := 2500.0

  /** `PlanConfig[plan]?.amount || PlanConfig.A.amount`: the table's amount,
      or plan A's when the entry is missing or its amount is falsy (zero). */
  function RegistrationFee(plan: string): (fee: real)
    ensures fee > 0.0
    ensures Lookup(plan).Some? ==> fee == Lookup(plan).value.amount
    ensures Lookup(plan).None? ==> fee == Lookup("A").value.amount
  {
    match Lookup(plan)
    case Some(e) => if e.amount != 0.0 then e.amount else DefaultFee
    case None => DefaultFee
  }
}

=== FILE: reconciliation.dfy ===
/** Properties that span several routes: the registration latch over any
    sequence of store-writing calls, and the sign of a credit when the record
    it settles was created by the matching top-up initialiser. */
module Reconciliation {
  import opened Base
  import opened Ledger
  import opened Gateways
  import AlatpayTopup
  import AlatpayTopupVerify
  import WalletTopup
  import WalletCallback
  import AlatpayCallback
  import AlatpayVerify
  import PaystackVerify
  import AccountsAdd
  import ThriftSubscriptions
  import SettlementAccounts
  import NextSettlements
  import PaidSettlements

  /** One call of a route that writes the store, with the inputs the model
      takes as parameters (clock, UUID, new row id, configuration, gateway
      reply). */
  datatype Call =
    | AlatpayTopupCall(req: AlatpayTopup.Request, uuid: string, newId: int, configured: bool, initReply: VirtualAccountReply)
    | AlatpayTopupVerifyCall(verifyReq: AlatpayTopupVerify.Request, transferReply: BankTransferReply)
    | WalletTopupCall(walletReq: WalletTopup.Request, uuid: string, newId: int, configured: bool, paystackInit: PaystackInitReply)
    | WalletCallbackCall(callbackReq: WalletCallback.Request, configured: bool, paystackReply: PaystackVerifyReply)
    | AlatpayWebhookCall(body: AlatpayCallback.Webhook, checkout: CheckoutReply)
    | AlatpayVerifyCall(alatReq: AlatpayVerify.Request, now: int, alatReply: AlatTransactionReply)
    | PaystackVerifyCall(paystackReq: PaystackVerify.Request, now: int, verifyReply: PaystackVerifyReply)
    | AccountsAddCall(addReq: AccountsAdd.Request, clock: nat, newId: int)
    | ThriftCreateCall(thriftReq: ThriftSubscriptions.CreateRequest, now: int, newId: int)
    | SettlementAccountCall(settlementReq: SettlementAccounts.CreateRequest, now: int, newId: int)
    | NextSettlementCall(nextReq: NextSettlements.CreateRequest, newId: int)
    | PaidSettlementCall(paidReq: PaidSettlements.CreateRequest, now: int, newId: int)

  /** The store after one call. */
  function Apply(s: Store, c: Call): (s': Store)
    ensures LatchKept(s, s')
  {
    match c
    case AlatpayTopupCall(req, uuid, newId, configured, reply) =>
      AlatpayTopup.Topup(s, req, uuid, newId, configured, reply).store
    case AlatpayTopupVerifyCall(req, reply) => AlatpayTopupVerify.Verify(s, req, reply).store
    case WalletTopupCall(req, uuid, newId, configured, reply) =>
      WalletTopup.Topup(s, req, uuid, newId, configured, reply).store
    case WalletCallbackCall(req, configured, reply) => WalletCallback.Callback(s, req, configured, reply).store
    case AlatpayWebhookCall(body, reply) => AlatpayCallback.Receive(s, body, reply).store
    case AlatpayVerifyCall(req, now, reply) => AlatpayVerify.Verify(s, req, now, reply).store
    case PaystackVerifyCall(req, now, reply) => PaystackVerify.Verify(s, req, now, reply).store
    case AccountsAddCall(req, now, newId) => AccountsAdd.Add(s, req, now, newId).store
    case ThriftCreateCall(req, now, newId) => ThriftSubscriptions.Create(s, req, now, newId).store
    case SettlementAccountCall(req, now, newId) => SettlementAccounts.Create(s, req, now, newId).store
    case NextSettlementCall(req, newId) => NextSettlements.Create(s, req, newId).store
    case PaidSettlementCall(req, now, newId) => PaidSettlements.Create(s, req, now, newId).store
  }

  /** The store after a sequence of calls, in order. */
  function Run(s: Store, calls: seq<Call>): Store
    decreases |calls|
  {
    if |calls| == 0 then s else Run(Apply(s, calls[0]), calls[1..])
  }

  /** Whatever routes run, in whatever order and with whatever gateway
      replies, a registered user stays registered and no user row appears,
      disappears or changes id. */
  lemma {:induction false} RunKeepsLatch(s: Store, calls: seq<Call>)
    ensures LatchKept(s, Run(s, calls))
    decreases |calls|
  {
    if |calls| > 0 {
      var s1 := Apply(s, calls[0]);
      RunKeepsLatch(s1, calls[1..]);
      LatchKeptTransitive(s, s1, Run(s1, calls[1..]));
    }
  }

  /** No two accounts share an id (the primary key). */
  ghost predicate UniqueAccountIds(s: Store)
  {
    forall i, j :: 0 <= i < j < |s.accounts| ==> s.accounts[i].id != s.accounts[j].id
  }

  /** With unique ids, looking an account up by its own id finds it. */
  lemma AccountIndexOfOwnId(s: Store, a: nat)
    requires UniqueAccountIds(s) && a < |s.accounts|
    ensures AccountIndex(s, s.accounts[a].id) == Some(a)
  {
    var k := AccountIndex(s, s.accounts[a].id).value;
    assert s.accounts[k].id == s.accounts[a].id;
  }

  /** A reference no row carries, once appended, is found at the new row. */
  lemma NewReferenceFound(s: Store, s': Store, reference: string)
    requires TransactionIndex(s, reference).None?
    requires AppendedTransaction(s, s')
    requires NewestTransaction(s').reference == reference
    ensures TransactionIndex(s', reference) == Some(|s.transactions|)
  {
    assert s'.transactions == s.transactions + [NewestTransaction(s')];
    FirstIndexAppend(s.transactions, NewestTransaction(s'), (t: Transaction) => t.reference == reference);
  }

  /** The ALATPay pair never credits a negative amount: a record the
      initialiser created holds at least the plan's fee whenever its user is
      unregistered, and verifying it straight away deducts that same fee. */
  lemma AlatpayCreditNonNegative(
    s: Store, treq: AlatpayTopup.Request, uuid: string, newId: int, configured: bool, initReply: VirtualAccountReply,
    vreq: AlatpayTopupVerify.Request, reply: BankTransferReply)
    requires UniqueAccountIds(s)
    requires AlatpayTopup.Topup(s, treq, uuid, newId, configured, initReply).store != s
    requires vreq.orderId == Some(AlatpayTopup.OrderId(uuid))
    ensures var s1 := AlatpayTopup.Topup(s, treq, uuid, newId, configured, initReply).store;
            var r := AlatpayTopupVerify.Verify(s1, vreq, reply);
            r.outcome.Credited? ==> r.outcome.creditedAmount >= 0.0 && r.outcome.userId == treq.caller.value
  {
    var s1 := AlatpayTopup.Topup(s, treq, uuid, newId, configured, initReply).store;
    var x := NewestTransaction(s1);
    NewReferenceFound(s, s1, AlatpayTopup.OrderId(uuid));
    var u := UserIndex(s, treq.caller.value).value;
    var a := FirstAccountIndex(s, s.users[u].id).value;
    AccountIndexOfOwnId(s, a);
    assert s1.accounts == s.accounts && s1.users == s.users;
    assert s1.transactions[|s.transactions|] == x;
  }

  /** The Paystack pair credits a non-negative amount as long as Paystack
      confirms the amount the initialiser recorded: that record holds at least
      the fixed 2500 fee whenever its user is unregistered. The callback never
      compares the two amounts itself. */
  lemma WalletCreditNonNegative(
    s: Store, treq: WalletTopup.Request, uuid: string, newId: int, configured: bool, initReply: PaystackInitReply,
    creq: WalletCallback.Request, paid: PaystackTransaction)
    requires UniqueAccountIds(s)
    requires WalletTopup.Topup(s, treq, uuid, newId, configured, initReply).store != s
    requires OrElse(creq.reference, creq.trxref) == Some(WalletTopup.Reference(uuid))
    requires paid.amountKobo as real == treq.amount.value * 100.0
    ensures var s1 := WalletTopup.Topup(s, treq, uuid, newId, configured, initReply).store;
            var r := WalletCallback.Callback(s1, creq, true, PaystackVerifyAnswered(true, Some(paid)));
            r.outcome.Succeeded? ==> r.outcome.amount >= 0.0
  {
    var s1 := WalletTopup.Topup(s, treq, uuid, newId, configured, initReply).store;
    var x := NewestTransaction(s1);
    NewReferenceFound(s, s1, WalletTopup.Reference(uuid));
    var u := UserIndex(s, treq.caller.value).value;
    var a := FirstAccountIndex(s, s.users[u].id).value;
    AccountIndexOfOwnId(s, a);
    assert s1.accounts == s.accounts && s1.users == s.users;
    assert s1.transactions[|s.transactions|] == x;
  }
}

=== FILE: registration_verify.dfy ===
/** `POST /api/alatpay/verify`: confirms a registration-fee payment with
    ALATPay. A "Successful"/"SUCCESSFUL" transaction marks the caller's
    Payment record SUCCESSFUL and sets the caller's registration latch. */
module AlatpayVerify {
  import opened Base
  import opened Ledger
  import opened Gateways

  /** `caller` is the session's userId, `None` without a token. */
  datatype Request = Request(reference: Option<string>, orderId: Option<string>, caller: Option<UserId>)

  datatype Outcome =
    | MissingReference
    | NotAuthenticated
    | PaymentNotFound
    | Verified(amount: real, reference: string, userId: UserId)
    | NotSuccessful(status: string)
    /** the envelope status is not "success", or there is no data */
    | VerificationFailed
    /** the gateway call threw, or the latch write found no user after the payment write */
    | CouldNotVerify

  function HttpStatus(o: Outcome): int
  {
    match o
    case MissingReference => 400
    case NotAuthenticated => 401
    case PaymentNotFound => 404
    case Verified(_, _, _) => 200
    case NotSuccessful(_) => 400
    case VerificationFailed => 400
    case CouldNotVerify => 400
  }

  /** `findFirst({ where: { orderId, userId } })`. */
  function PaymentIndex(s: Store, orderId: string, uid: UserId): Option<nat>
  {
    FirstIndex(s.payments, (p: Payment) => p.orderId == orderId && p.userId == uid)
  }

  /** The transaction statuses that count as paid. */
  predicate IsPaid(status: string)
  {
    status == "Successful" || status == "SUCCESSFUL"
  }

  /** A reference (else orderId), a session, and the caller's payment for it. */
  ghost predicate PaymentFound(s: Store, req: Request)
  {
    && (Present(req.reference) || Present(req.orderId)) && req.caller.Some?
    && PaymentIndex(s, OrElse(req.reference, req.orderId).value, req.caller.value).Some?
  }

  function Verify(s: Store, req: Request, now: int, reply: AlatTransactionReply): (r: Step<Outcome>)
    ensures !Present(req.reference) && !Present(req.orderId) ==> r == Step(s, MissingReference)
    ensures r.outcome.MissingReference? <==> !Present(req.reference) && !Present(req.orderId)
    ensures r.outcome.NotAuthenticated? <==> (Present(req.reference) || Present(req.orderId)) && req.caller.None?
    ensures r.outcome.PaymentNotFound? <==>
              && (Present(req.reference) || Present(req.orderId)) && req.caller.Some?
              && PaymentIndex(s, OrElse(req.reference, req.orderId).value, req.caller.value).None?
    ensures r.outcome.VerificationFailed? <==>
              PaymentFound(s, req) && reply.AlatTransactionAnswered? && (reply.status != "success" || reply.data.None?)
    ensures r.outcome.NotSuccessful? <==>
              && PaymentFound(s, req) && reply.AlatTransactionAnswered? && reply.status == "success"
              && reply.data.Some? && !IsPaid(reply.data.value.status)
    ensures r.outcome.NotSuccessful? ==> r.outcome.status == reply.data.value.status
    ensures r.outcome.CouldNotVerify? <==>
              && PaymentFound(s, req)
              && (|| reply.AlatTransactionThrown?
                  || (&& reply.status == "success" && reply.data.Some? && IsPaid(reply.data.value.status)
                      && UserIndex(s, req.caller.value).None?))
    ensures (|| r.outcome.NotAuthenticated? || r.outcome.PaymentNotFound? || r.outcome.NotSuccessful?
             || r.outcome.VerificationFailed? || r.outcome.MissingReference?) ==> r.store == s
    ensures r.outcome.Verified? <==>
              && (Present(req.reference) || Present(req.orderId)) && req.caller.Some?
              && PaymentIndex(s, OrElse(req.reference, req.orderId).value, req.caller.value).Some?
              && reply.AlatTransactionAnswered? && reply.status == "success" && reply.data.Some?
              && IsPaid(reply.data.value.status)
              && UserIndex(s, req.caller.value).Some?
    ensures r.outcome.Verified? ==> VerifiedEffect(s, req, now, reply, r)
    ensures r.store != s ==>
              && reply.AlatTransactionAnswered? && reply.status == "success"
              && reply.data.Some? && IsPaid(reply.data.value.status)
    ensures LatchKept(s, r.store)
  {
    if !Present(req.reference) && !Present(req.orderId) then Step(s, MissingReference)
    else
      var paymentRef := OrElse(req.reference, req.orderId).value;
      if req.caller.None? then Step(s, NotAuthenticated)
      else
        var uid := req.caller.value;
        match PaymentIndex(s, paymentRef, uid)
        case None => Step(s, PaymentNotFound)
        case Some(p) =>
          var payment := s.payments[p];
          match reply
          case AlatTransactionThrown => Step(s, CouldNotVerify)
          case AlatTransactionAnswered(status, data) =>
            if status != "success" || data.None? then Step(s, VerificationFailed)
            else if !IsPaid(data.value.status) then Step(s, NotSuccessful(data.value.status))
            else
              var paid := s.(payments := s.payments[p := payment.(
                status := PaymentSuccessful, verification := Some(Verification(now, Alatpay)))]);
              match UserIndex(s, uid)
              case None => Step(paid, CouldNotVerify)
              case Some(u) =>
                var amount := if data.value.amount.Some? && data.value.amount.value != 0.0
                              then data.value.amount.value else payment.amount;
                Step(paid.(users := s.users[u := s.users[u].(registrationPaid := true)]),
                     Verified(amount, paymentRef, payment.userId))
  }

  /** A verified payment: the caller's Payment for the reference (reference,
      else orderId) is SUCCESSFUL, the caller is registered, the reported amount
      is the gateway's (the stored one when the gateway's is missing or zero),
      and nothing else moved. */
  ghost predicate VerifiedEffect(s: Store, req: Request, now: int, reply: AlatTransactionReply, r: Step<Outcome>)
    requires r.outcome.Verified?
  {
    var s' := r.store;
    && req.caller.Some?
    && Present(OrElse(req.reference, req.orderId))
    && var paymentRef := if Present(req.reference) then req.reference.value else req.orderId.value;
    && r.outcome.reference == paymentRef
    && PaymentIndex(s, paymentRef, req.caller.value).Some?
    && var p := PaymentIndex(s, paymentRef, req.caller.value).value;
    && p < |s.payments|
    && s.payments[p].orderId == paymentRef && s.payments[p].userId == req.caller.value
    && r.outcome.userId == req.caller.value
    && reply.AlatTransactionAnswered? && reply.status == "success" && reply.data.Some?
    && IsPaid(reply.data.value.status)
    && (reply.data.value.amount.Some? && reply.data.value.amount.value != 0.0 ==> r.outcome.amount == reply.data.value.amount.value)
    && (reply.data.value.amount.None? || reply.data.value.amount.value == 0.0 ==> r.outcome.amount == s.payments[p].amount)
    && s'.payments == s.payments[p := s.payments[p].(status := PaymentSuccessful, verification := Some(Verification(now, Alatpay)))]
    && UserIndex(s, req.caller.value).Some?
    && var u := UserIndex(s, req.caller.value).value;
    && u < |s.users|
    && s'.users == s.users[u := s.users[u].(registrationPaid := true)]
    && s' == s.(payments := s'.payments, users := s'.users)
  }

  /** The payment lookup only reads the orderId and userId columns. */
  lemma PaymentIndexStable(s: Store, s': Store, orderId: string, uid: UserId)
    requires |s'.payments| == |s.payments|
    requires forall j :: 0 <= j < |s.payments| ==> s'.payments[j].orderId == s.payments[j].orderId && s'.payments[j].userId == s.payments[j].userId
    ensures PaymentIndex(s', orderId, uid) == PaymentIndex(s, orderId, uid)
  {
    FirstIndexAgrees(s'.payments, (p: Payment) => p.orderId == orderId && p.userId == uid,
                     s.payments, (p: Payment) => p.orderId == orderId && p.userId == uid);
  }

  /** Verifying an already verified payment again with the same gateway
      answer, at any later instant `now2`, answers the same and rewrites only
      the payment's verification time; at the same instant it changes
      nothing. */
  lemma VerifyIdempotent(s: Store, req: Request, now: int, now2: int, reply: AlatTransactionReply)
    requires Verify(s, req, now, reply).outcome.Verified?
    ensures var r1 := Verify(s, req, now, reply);
            var s1 := r1.store;
            var p := PaymentIndex(s, OrElse(req.reference, req.orderId).value, req.caller.value).value;
            && p < |s1.payments|
            && Verify(s1, req, now2, reply)
                 == Step(s1.(payments := s1.payments[p := s1.payments[p].(verification := Some(Verification(now2, Alatpay)))]), r1.outcome)
            && (now2 == now ==> Verify(s1, req, now2, reply) == r1)
  {
    var s1 := Verify(s, req, now, reply).store;
    var paymentRef := OrElse(req.reference, req.orderId).value;
    PaymentIndexStable(s, s1, paymentRef, req.caller.value);
    UserIndexStable(s, s1, req.caller.value, "");
  }
}

/** `POST /api/paystack/verify`: confirms a registration-fee payment with
    Paystack before looking at the session; success marks the caller's
    Payment record SUCCESSFUL and sets the caller's registration latch. */
module PaystackVerify {
  import opened Base
  import opened Ledger
  import opened Gateways
  import AlatpayVerify

  /** `caller` is the session's userId, `None` without a token. */
  datatype Request = Request(reference: Option<string>, caller: Option<UserId>)

  datatype Outcome =
    | MissingReference
    /** no reply status or no data */
    | VerificationFailed
    | NotSuccessful(status: string)
    | NotAuthenticated
    | PaymentNotFound
    | Verified(amount: real, reference: string, userId: UserId)
    | GatewayError(code: int)
    /** the latch write found no user after the payment write */
    | ServerError

  function HttpStatus(o: Outcome): int
  {
    match o
    case MissingReference => 400
    case VerificationFailed => 400
    case NotSuccessful(_) => 400
    case NotAuthenticated => 401
    case PaymentNotFound => 404
    case Verified(_, _, _) => 200
    case GatewayError(code) => code
    case ServerError => 500
  }

  /** Paystack confirmed the reference: a truthy status and "success" data. */
  predicate Confirmed(req: Request, reply: PaystackVerifyReply)
  {
    && Present(req.reference) && reply.PaystackVerifyAnswered? && reply.status
    && reply.data.Some? && reply.data.value.status == "success"
  }

  function Verify(s: Store, req: Request, now: int, reply: PaystackVerifyReply): (r: Step<Outcome>)
    ensures !Present(req.reference) ==> r == Step(s, MissingReference)
    ensures r.outcome.MissingReference? <==> !Present(req.reference)
    ensures r.outcome.GatewayError? <==> Present(req.reference) && reply.PaystackVerifyThrown?
    ensures r.outcome.GatewayError? ==> r.outcome.code == ErrorStatus(reply.httpStatus)
    ensures r.outcome.NotAuthenticated? <==> Confirmed(req, reply) && req.caller.None?
    ensures r.outcome.PaymentNotFound? <==>
              Confirmed(req, reply) && req.caller.Some? && AlatpayVerify.PaymentIndex(s, req.reference.value, req.caller.value).None?
    ensures r.outcome.ServerError? <==>
              && Confirmed(req, reply) && req.caller.Some?
              && AlatpayVerify.PaymentIndex(s, req.reference.value, req.caller.value).Some?
              && UserIndex(s, req.caller.value).None?
    ensures r.outcome.VerificationFailed? || r.outcome.NotSuccessful? ==> r.store == s
    ensures Present(req.reference) && reply.PaystackVerifyAnswered? && (!reply.status || reply.data.None?) ==>
              r == Step(s, VerificationFailed)
    ensures (&& Present(req.reference) && reply.PaystackVerifyAnswered? && reply.status && reply.data.Some?
             && reply.data.value.status != "success") ==> r == Step(s, NotSuccessful(reply.data.value.status))
    ensures !r.outcome.Verified? && !r.outcome.ServerError? ==> r.store == s
    ensures r.outcome.Verified? <==>
              && Present(req.reference) && reply.PaystackVerifyAnswered? && reply.status && reply.data.Some?
              && reply.data.value.status == "success" && req.caller.Some?
              && AlatpayVerify.PaymentIndex(s, req.reference.value, req.caller.value).Some?
              && UserIndex(s, req.caller.value).Some?
    ensures r.outcome.Verified? ==> VerifiedEffect(s, req, now, reply, r)
    ensures LatchKept(s, r.store)
  {
    if !Present(req.reference) then Step(s, MissingReference)
    else
      var reference := req.reference.value;
      match reply
      case PaystackVerifyThrown(code) => Step(s, GatewayError(ErrorStatus(code)))
      case PaystackVerifyAnswered(ok, data) =>
        if !ok || data.None? then Step(s, VerificationFailed)
        else if data.value.status != "success" then Step(s, NotSuccessful(data.value.status))
        else if req.caller.None? then Step(s, NotAuthenticated)
        else
          var uid := req.caller.value;
          match AlatpayVerify.PaymentIndex(s, reference, uid)
          case None => Step(s, PaymentNotFound)
          case Some(p) =>
            var payment := s.payments[p];
            var paid := s.(payments := s.payments[p := payment.(
              status := PaymentSuccessful, verification := Some(Verification(now, Paystack)))]);
            match UserIndex(s, uid)
            case None => Step(paid, ServerError)
            case Some(u) =>
              Step(paid.(users := s.users[u := s.users[u].(registrationPaid := true)]),
                   Verified(KoboToNaira(data.value.amountKobo), data.value.reference, payment.userId))
  }

  /** A verified payment: Paystack said "success", the caller's Payment with
      orderId = reference is SUCCESSFUL, the caller is registered, the
      reported amount is the gateway's kobo amount in naira, and nothing else
      moved. */
  ghost predicate VerifiedEffect(s: Store, req: Request, now: int, reply: PaystackVerifyReply, r: Step<Outcome>)
    requires r.outcome.Verified?
  {
    var s' := r.store;
    && Present(req.reference) && req.caller.Some?
    && reply.PaystackVerifyAnswered? && reply.status && reply.data.Some?
    && reply.data.value.status == "success"
    && r.outcome.amount * 100.0 == reply.data.value.amountKobo as real
    && r.outcome.reference == reply.data.value.reference
    && r.outcome.userId == req.caller.value
    && AlatpayVerify.PaymentIndex(s, req.reference.value, req.caller.value).Some?
    && var p := AlatpayVerify.PaymentIndex(s, req.reference.value, req.caller.value).value;
    && p < |s.payments|
    && s'.payments == s.payments[p := s.payments[p].(status := PaymentSuccessful, verification := Some(Verification(now, Paystack)))]
    && UserIndex(s, req.caller.value).Some?
    && var u := UserIndex(s, req.caller.value).value;
    && u < |s.users|
    && s'.users == s.users[u := s.users[u].(registrationPaid := true)]
    && s' == s.(payments := s'.payments, users := s'.users)
  }

  /** Verifying an already verified payment again with the same gateway
      answer, at any later instant `now2`, answers the same and rewrites only
      the payment's verification time; at the same instant it changes
      nothing. */
  lemma VerifyIdempotent(s: Store, req: Request, now: int, now2: int, reply: PaystackVerifyReply)
    requires Verify(s, req, now, reply).outcome.Verified?
    ensures var r1 := Verify(s, req, now, reply);
            var s1 := r1.store;
            var p := AlatpayVerify.PaymentIndex(s, req.reference.value, req.caller.value).value;
            && p < |s1.payments|
            && Verify(s1, req, now2, reply)
                 == Step(s1.(payments := s1.payments[p := s1.payments[p].(verification := Some(Verification(now2, Paystack)))]), r1.outcome)
            && (now2 == now ==> Verify(s1, req, now2, reply) == r1)
  {
    var s1 := Verify(s, req, now, reply).store;
    AlatpayVerify.PaymentIndexStable(s, s1, req.reference.value, req.caller.value);
    UserIndexStable(s, s1, req.caller.value, "");
  }
}

=== FILE: settlements.dfy ===
/** `/api/settlement-accounts`: a user's payout bank accounts. `POST` adds one,
    clearing the user's other defaults first when the new one is the default;
    `GET` lists a user's accounts, newest first. */
module SettlementAccounts {
  import opened Base
  import opened Ledger

  /** At most one default settlement account per user. */
  ghost predicate AtMostOneDefault(rows: seq<SettlementAccount>)
  {
    forall i, j :: 0 <= i < j < |rows| && rows[i].isDefault && rows[j].isDefault ==> rows[i].userId != rows[j].userId
  }

  /** `updateMany({ where: { userId, isDefault: true }, data: { isDefault: false } })`. */
  function ClearDefaults(rows: seq<SettlementAccount>, uid: UserId): (r: seq<SettlementAccount>)
    ensures |r| == |rows|
    ensures forall j :: 0 <= j < |rows| && rows[j].userId == uid ==> r[j] == rows[j].(isDefault := false)
    ensures forall j :: 0 <= j < |rows| && rows[j].userId != uid ==> r[j] == rows[j]
  {
    seq(|rows|, j requires 0 <= j < |rows| =>
      if rows[j].userId == uid && rows[j].isDefault then rows[j].(isDefault := false) else rows[j])
  }

  /** The body's fields; `None` when absent. `isDefault` stands for its
      truthiness, `None` when absent (then it defaults to `false`). */
  datatype CreateRequest = CreateRequest(
    userId: Option<UserId>,
    bankName: Option<string>,
    accountNumber: Option<string>,
    accountName: Option<string>,
    isDefault: Option<bool>)

  datatype CreateOutcome = MissingFields | Created(account: SettlementAccount)

  function CreateStatus(o: CreateOutcome): int
  {
    match o
    case MissingFields => 400
    case Created(_) => 201
  }

  predicate HasRequiredFields(req: CreateRequest)
  {
    && req.userId.Some? && req.userId.value != 0
    && Present(req.bankName) && Present(req.accountNumber) && Present(req.accountName)
  }

  /** `now` is the row's `createdAt`, `newId` its autoincrement id. */
  function Create(s: Store, req: CreateRequest, now: int, newId: int): (r: Step<CreateOutcome>)
    ensures !HasRequiredFields(req) <==> r == Step(s, MissingFields)
    ensures r.outcome.Created? ==>
              var isDefault := req.isDefault == Some(true);
              var uid := req.userId.value;
              && r.outcome.account == SettlementAccount(newId, uid, req.bankName.value, req.accountNumber.value,
                                                        req.accountName.value, isDefault, now)
              && r.store == s.(settlementAccounts := r.store.settlementAccounts)
              && |r.store.settlementAccounts| == |s.settlementAccounts| + 1
              && r.store.settlementAccounts[|s.settlementAccounts|] == r.outcome.account
              && (!isDefault ==> r.store.settlementAccounts == s.settlementAccounts + [r.outcome.account])
              && (isDefault ==> r.store.settlementAccounts == ClearDefaults(s.settlementAccounts, uid) + [r.outcome.account])
  {
    if !HasRequiredFields(req) then Step(s, MissingFields)
    else
      var uid := req.userId.value;
      var isDefault := req.isDefault == Some(true);
      var kept := if isDefault then ClearDefaults(s.settlementAccounts, uid) else s.settlementAccounts;
      var account := SettlementAccount(newId, uid, req.bankName.value, req.accountNumber.value, req.accountName.value, isDefault, now);
      Step(s.(settlementAccounts := kept + [account]), Created(account))
  }

  /** Adding an account keeps at most one default per user; a new default is
      then its user's only default, and no other user's rows change. */
  lemma CreateKeepsOneDefault(s: Store, req: CreateRequest, now: int, newId: int)
    requires AtMostOneDefault(s.settlementAccounts)
    requires Create(s, req, now, newId).outcome.Created?
    ensures var rows := Create(s, req, now, newId).store.settlementAccounts;
            && AtMostOneDefault(rows)
            && (req.isDefault == Some(true) ==>
                  forall j :: 0 <= j < |rows| - 1 && rows[j].userId == req.userId.value ==> !rows[j].isDefault)
            && (forall j :: 0 <= j < |s.settlementAccounts| && s.settlementAccounts[j].userId != req.userId.value ==>
                  rows[j] == s.settlementAccounts[j])
  {
    var rows := Create(s, req, now, newId).store.settlementAccounts;
    var n := |s.settlementAccounts|;
    forall i, j | 0 <= i < j < |rows| && rows[i].isDefault && rows[j].isDefault
      ensures rows[i].userId != rows[j].userId
    {
      if j < n {
        assert s.settlementAccounts[i].isDefault && s.settlementAccounts[j].isDefault;
      }
    }
  }

  datatype ListOutcome = MissingUserId | Listed(accounts: seq<SettlementAccount>)

  /** The `orderBy: { createdAt: "desc" }` key. */
  function NewestFirstKey(x: SettlementAccount): int
  {
    -x.createdAt
  }

  /** `GET ?userId=`: that user's accounts and nobody else's, each exactly once,
      newest first. */
  function List(s: Store, userId: Option<UserId>): (r: ListOutcome)
    ensures userId.None? <==> r == MissingUserId
    ensures r.Listed? ==>
              && SortedBy(r.accounts, NewestFirstKey)
              && multiset(r.accounts) == multiset(Filter(s.settlementAccounts, (x: SettlementAccount) => x.userId == userId.value))
              && forall i :: 0 <= i < |r.accounts| ==> r.accounts[i].userId == userId.value
  {
    if userId.None? then MissingUserId
    else
      var mine := Filter(s.settlementAccounts, (x: SettlementAccount) => x.userId == userId.value);
      var sorted := SortBy(mine, NewestFirstKey);
      assert forall i :: 0 <= i < |sorted| ==> sorted[i].userId == userId.value by {
        forall i | 0 <= i < |sorted|
          ensures sorted[i].userId == userId.value
        {
          assert sorted[i] in multiset(mine);
        }
      }
      Listed(sorted)
  }
}

/** `/api/settlements/next-settlement`: scheduled payouts. `POST` schedules
    one on an account the caller owns; `GET` lists the caller's scheduled
    payouts, soonest first. */
module NextSettlements {
  import opened Base
  import opened Ledger

  /** `caller` is the session's userId (`None` without a token); the rest is
      the body, `accountId` and `priority` `None` when absent. */
  datatype CreateRequest = CreateRequest(
    caller: Option<UserId>,
    accountId: Option<AccountId>,
    details: SettlementDetails,
    scheduledDate: int,
    settlementCycle: Option<string>,
    priority: Option<string>)

  datatype CreateOutcome =
    | Unauthorized
    | UserNotFound
    | MissingAccountId
    | NotOwner
    | Created(settlement: NextSettlement)

  function CreateStatus(o: CreateOutcome): int
  {
    match o
    case Unauthorized => 401
    case UserNotFound => 404
    case MissingAccountId => 400
    case NotOwner => 403
    case Created(_) => 201
  }

  /** Every scheduled payout is on an account its user owns. */
  ghost predicate Owned(s: Store)
  {
    forall i :: 0 <= i < |s.nextSettlements| ==> OwnsAccount(s, s.nextSettlements[i].userId, s.nextSettlements[i].accountId)
  }

  function Create(s: Store, req: CreateRequest, newId: int): (r: Step<CreateOutcome>)
    ensures req.caller.None? ==> r == Step(s, Unauthorized)
    ensures !r.outcome.Created? ==> r.store == s
    ensures r.outcome.UserNotFound? <==> req.caller.Some? && UserIndex(s, req.caller.value).None?
    ensures r.outcome.MissingAccountId? <==>
              && req.caller.Some? && UserIndex(s, req.caller.value).Some?
              && (req.accountId.None? || req.accountId.value == 0)
    ensures r.outcome.Created? <==>
              && req.caller.Some? && UserIndex(s, req.caller.value).Some?
              && req.accountId.Some? && req.accountId.value != 0
              && OwnsAccount(s, req.caller.value, req.accountId.value)
    ensures r.outcome.NotOwner? <==>
              && req.caller.Some? && UserIndex(s, req.caller.value).Some?
              && req.accountId.Some? && req.accountId.value != 0
              && !OwnsAccount(s, req.caller.value, req.accountId.value)
    ensures r.outcome.Created? ==>
              && req.caller.Some? && req.accountId.Some?
              && OwnsAccount(s, req.caller.value, req.accountId.value)
              && var x := r.outcome.settlement;
              && x == NextSettlement(newId, req.caller.value, req.accountId.value, req.details, req.scheduledDate,
                                     req.settlementCycle, x.priority, "scheduled")
              && (Present(req.priority) ==> x.priority == req.priority.value)
              && (!Present(req.priority) ==> x.priority == "normal")
              && r.store == s.(nextSettlements := s.nextSettlements + [x])
  {
    if req.caller.None? then Step(s, Unauthorized)
    else if UserIndex(s, req.caller.value).None? then Step(s, UserNotFound)
    else if req.accountId.None? || req.accountId.value == 0 then Step(s, MissingAccountId)
    else if !OwnsAccount(s, req.caller.value, req.accountId.value) then Step(s, NotOwner)
    else
      var x := NextSettlement(newId, req.caller.value, req.accountId.value, req.details, req.scheduledDate,
                              req.settlementCycle, OrElse(req.priority, Some("normal")).value, "scheduled");
      Step(s.(nextSettlements := s.nextSettlements + [x]), Created(x))
  }

  /** Scheduling keeps every payout on an account its user owns. */
  lemma CreateKeepsOwnership(s: Store, req: CreateRequest, newId: int)
    requires Owned(s)
    ensures Owned(Create(s, req, newId).store)
  {
    var s' := Create(s, req, newId).store;
    assert s'.accounts == s.accounts;
    forall i | 0 <= i < |s'.nextSettlements|
      ensures OwnsAccount(s', s'.nextSettlements[i].userId, s'.nextSettlements[i].accountId)
    {
      if i < |s.nextSettlements| {
        assert s'.nextSettlements[i] == s.nextSettlements[i];
        assert OwnsAccount(s, s.nextSettlements[i].userId, s.nextSettlements[i].accountId);
      }
    }
  }

  datatype ListOutcome = ListUnauthorized | ListUserNotFound | Listed(settlements: seq<NextSettlement>)

  /** The caller's payouts that are still scheduled. */
  function ScheduledOf(s: Store, uid: UserId): seq<NextSettlement>
  {
    Filter(s.nextSettlements, (x: NextSettlement) => x.userId == uid && x.status == "scheduled")
  }

  /** The `orderBy: { scheduledDate: "asc" }` key. */
  function SoonestFirstKey(x: NextSettlement): int
  {
    x.scheduledDate
  }

  /** `GET`: the caller's scheduled payouts and nothing else, each exactly once,
      soonest first. */
  function List(s: Store, caller: Option<UserId>): (r: ListOutcome)
    ensures r == ListUnauthorized <==> caller.None?
    ensures r.ListUserNotFound? <==> caller.Some? && UserIndex(s, caller.value).None?
    ensures r.Listed? <==> caller.Some? && UserIndex(s, caller.value).Some?
    ensures r.Listed? ==>
              && caller.Some?
              && SortedBy(r.settlements, SoonestFirstKey)
              && multiset(r.settlements) == multiset(ScheduledOf(s, caller.value))
              && forall i :: 0 <= i < |r.settlements| ==>
                   r.settlements[i].userId == caller.value && r.settlements[i].status == "scheduled"
  {
    if caller.None? then ListUnauthorized
    else if UserIndex(s, caller.value).None? then ListUserNotFound
    else
      var mine := ScheduledOf(s, caller.value);
      var sorted := SortBy(mine, SoonestFirstKey);
      assert forall i :: 0 <= i < |sorted| ==> sorted[i].userId == caller.value && sorted[i].status == "scheduled" by {
        forall i | 0 <= i < |sorted|
          ensures sorted[i].userId == caller.value && sorted[i].status == "scheduled"
        {
          assert sorted[i] in multiset(mine);
        }
      }
      Listed(sorted)
  }
}

/** `/api/settlements/paid-accounts`: completed payouts. `POST` records one
    on an account the caller owns, dated now; `GET` lists the caller's
    records, most recent first. */
module PaidSettlements {
  import opened Base
  import opened Ledger

  /** `caller` is the session's userId (`None` without a token); the rest is
      the body, `accountId` `None` when absent. */
  datatype CreateRequest = CreateRequest(
    caller: Option<UserId>,
    accountId: Option<AccountId>,
    details: SettlementDetails,
    reference: Option<string>,
    paymentMethod: Option<string>)

  datatype CreateOutcome =
    | Unauthorized
    | UserNotFound
    | MissingAccountId
    | NotOwner
    | Created(settlement: PaidSettlement)

  function CreateStatus(o: CreateOutcome): int
  {
    match o
    case Unauthorized => 401
    case UserNotFound => 404
    case MissingAccountId => 400
    case NotOwner => 403
    case Created(_) => 201
  }

  /** Every paid record is on an account its user owns. */
  ghost predicate Owned(s: Store)
  {
    forall i :: 0 <= i < |s.paidSettlements| ==> OwnsAccount(s, s.paidSettlements[i].userId, s.paidSettlements[i].accountId)
  }

  /** `now` is the clock, `newId` the autoincrement id of the new row. */
  function Create(s: Store, req: CreateRequest, now: int, newId: int): (r: Step<CreateOutcome>)
    ensures req.caller.None? ==> r == Step(s, Unauthorized)
    ensures !r.outcome.Created? ==> r.store == s
    ensures r.outcome.UserNotFound? <==> req.caller.Some? && UserIndex(s, req.caller.value).None?
    ensures r.outcome.MissingAccountId? <==>
              && req.caller.Some? && UserIndex(s, req.caller.value).Some?
              && (req.accountId.None? || req.accountId.value == 0)
    ensures r.outcome.Created? <==>
              && req.caller.Some? && UserIndex(s, req.caller.value).Some?
              && req.accountId.Some? && req.accountId.value != 0
              && OwnsAccount(s, req.caller.value, req.accountId.value)
    ensures r.outcome.NotOwner? <==>
              && req.caller.Some? && UserIndex(s, req.caller.value).Some?
              && req.accountId.Some? && req.accountId.value != 0
              && !OwnsAccount(s, req.caller.value, req.accountId.value)
    ensures r.outcome.Created? ==>
              && req.caller.Some? && req.accountId.Some?
              && OwnsAccount(s, req.caller.value, req.accountId.value)
              && var x := r.outcome.settlement;
              && x == PaidSettlement(newId, req.caller.value, req.accountId.value, req.details, now,
                                     req.reference, req.paymentMethod)
              && r.store == s.(paidSettlements := s.paidSettlements + [x])
  {
    if req.caller.None? then Step(s, Unauthorized)
    else if UserIndex(s, req.caller.value).None? then Step(s, UserNotFound)
    else if req.accountId.None? || req.accountId.value == 0 then Step(s, MissingAccountId)
    else if !OwnsAccount(s, req.caller.value, req.accountId.value) then Step(s, NotOwner)
    else
      var x := PaidSettlement(newId, req.caller.value, req.accountId.value, req.details, now, req.reference, req.paymentMethod);
      Step(s.(paidSettlements := s.paidSettlements + [x]), Created(x))
  }

  /** Recording keeps every paid record on an account its user owns. */
  lemma CreateKeepsOwnership(s: Store, req: CreateRequest, now: int, newId: int)
    requires Owned(s)
    ensures Owned(Create(s, req, now, newId).store)
  {
    var s' := Create(s, req, now, newId).store;
    assert s'.accounts == s.accounts;
    forall i | 0 <= i < |s'.paidSettlements|
      ensures OwnsAccount(s', s'.paidSettlements[i].userId, s'.paidSettlements[i].accountId)
    {
      if i < |s.paidSettlements| {
        assert s'.paidSettlements[i] == s.paidSettlements[i];
        assert OwnsAccount(s, s.paidSettlements[i].userId, s.paidSettlements[i].accountId);
      }
    }
  }

  datatype ListOutcome = ListUnauthorized | ListUserNotFound | Listed(settlements: seq<PaidSettlement>)

  function PaidOf(s: Store, uid: UserId): seq<PaidSettlement>
  {
    Filter(s.paidSettlements, (x: PaidSettlement) => x.userId == uid)
  }

  /** The `orderBy: { settlementDate: "desc" }` key. */
  function LatestFirstKey(x: PaidSettlement): int
  {
    -x.settlementDate
  }

  /** `GET`: the caller's paid records and nobody else's, each exactly once,
      most recent first. */
  function List(s: Store, caller: Option<UserId>): (r: ListOutcome)
    ensures r == ListUnauthorized <==> caller.None?
    ensures r.ListUserNotFound? <==> caller.Some? && UserIndex(s, caller.value).None?
    ensures r.Listed? <==> caller.Some? && UserIndex(s, caller.value).Some?
    ensures r.Listed? ==>
              && caller.Some?
              && SortedBy(r.settlements, LatestFirstKey)
              && multiset(r.settlements) == multiset(PaidOf(s, caller.value))
              && forall i :: 0 <= i < |r.settlements| ==> r.settlements[i].userId == caller.value
  {
    if caller.None? then ListUnauthorized
    else if UserIndex(s, caller.value).None? then ListUserNotFound
    else
      var mine := PaidOf(s, caller.value);
      var sorted := SortBy(mine, LatestFirstKey);
      assert forall i :: 0 <= i < |sorted| ==> sorted[i].userId == caller.value by {
        forall i | 0 <= i < |sorted|
          ensures sorted[i].userId == caller.value
        {
          assert sorted[i] in multiset(mine);
        }
      }
      Listed(sorted)
  }
}

=== FILE: thrift.dfy ===
/** `/api/thrift/subscriptions`: `POST` subscribes the caller to a thrift
    package, fixing the end date and the expected return; `GET` lists the
    caller's subscriptions, newest first, with their package's terms. */
module ThriftSubscriptions {
  import opened Base
  import opened Ledger

  /** Milliseconds in a day. */
  const DayMs: int := 86_400_000

  /** `setDate(getDate() + duration * 7)`: `weeks` whole weeks after `start`,
      on the millisecond clock. */
  function EndDate(start: int, weeks: int): (end: int)
    ensures end - start == weeks * 7 * DayMs
    ensures weeks >= 0 ==> end >= start
    ensures weeks > 0 ==> end - start >= 7 * DayMs
  {
    start + weeks * 7 * DayMs
  }

  /** `amountInvested + (amountInvested * profitPercentage) / 100`. */
  function ExpectedReturn(amount: real, profitPercentage: real): (r: real)
    ensures (r - amount) * 100.0 == amount * profitPercentage
    ensures amount >= 0.0 && profitPercentage >= 0.0 ==> r >= amount
    ensures profitPercentage == 100.0 ==> r == 2.0 * amount
  {
    amount + (amount * profitPercentage) / 100.0
  }

  function PackageIndex(s: Store, id: int): Option<nat>
  {
    FirstIndex(s.packages, (p: ThriftPackage) => p.id == id)
  }

  /** `caller` is the session's userId (`None` without a token); `packageId`
      and `amountInvested` are `None` when absent from the body. */
  datatype CreateRequest = CreateRequest(caller: Option<UserId>, packageId: Option<int>, amountInvested: Option<real>)

  datatype CreateOutcome =
    | Unauthorized
    | UserNotFound
    | MissingFields
    | PackageNotFound
    | Created(subscription: Subscription)

  function CreateStatus(o: CreateOutcome): int
  {
    match o
    case Unauthorized => 401
    case UserNotFound => 404
    case MissingFields => 400
    case PackageNotFound => 404
    case Created(_) => 201
  }

  /** `now` is the clock, `newId` the autoincrement id of the new row. */
  function Create(s: Store, req: CreateRequest, now: int, newId: int): (r: Step<CreateOutcome>)
    ensures req.caller.None? ==> r == Step(s, Unauthorized)
    ensures !r.outcome.Created? ==> r.store == s
    ensures r.outcome.MissingFields? <==>
              && req.caller.Some? && UserIndex(s, req.caller.value).Some?
              && (req.packageId in {None, Some(0)} || req.amountInvested in {None, Some(0.0)})
    ensures r.outcome.UserNotFound? <==> req.caller.Some? && UserIndex(s, req.caller.value).None?
    ensures r.outcome.PackageNotFound? <==>
              && req.caller.Some? && UserIndex(s, req.caller.value).Some? && !r.outcome.MissingFields?
              && PackageIndex(s, req.packageId.value).None?
    ensures r.outcome.Created? <==>
              && req.caller.Some? && UserIndex(s, req.caller.value).Some? && !r.outcome.MissingFields?
              && PackageIndex(s, req.packageId.value).Some?
    ensures r.outcome.Created? ==> CreatedEffect(s, req, now, newId, r)
  {
    if req.caller.None? then Step(s, Unauthorized)
    else if UserIndex(s, req.caller.value).None? then Step(s, UserNotFound)
    else if req.packageId in {None, Some(0)} || req.amountInvested in {None, Some(0.0)} then Step(s, MissingFields)
    else
      match PackageIndex(s, req.packageId.value)
      case None => Step(s, PackageNotFound)
      case Some(p) =>
        var pkg := s.packages[p];
        var amount := req.amountInvested.value;
        var sub := Subscription(newId, req.caller.value, pkg.id, amount, now,
          EndDate(now, pkg.duration), ExpectedReturn(amount, pkg.profitPercentage), None, "active", now);
        Step(s.(subscriptions := s.subscriptions + [sub]), Created(sub))
  }

  /** A new subscription: one active row for the caller and the requested
      package, starting now and ending the package's duration in weeks later,
      expecting the invested amount plus the package's profit, appended to the
      subscriptions and nothing else. */
  ghost predicate CreatedEffect(s: Store, req: CreateRequest, now: int, newId: int, r: Step<CreateOutcome>)
    requires r.outcome.Created?
  {
    var sub := r.outcome.subscription;
    && req.caller.Some? && req.packageId.Some? && req.amountInvested.Some?
    && req.packageId != Some(0) && req.amountInvested != Some(0.0)
    && PackageIndex(s, req.packageId.value).Some?
    && var pkg := s.packages[PackageIndex(s, req.packageId.value).value];
    && sub.id == newId && sub.userId == req.caller.value && sub.packageId == req.packageId.value
    && sub.amountInvested == req.amountInvested.value
    && sub.startDate == now && sub.createdAt == now
    && sub.endDate - sub.startDate == pkg.duration * 7 * DayMs
    && (sub.expectedReturn - sub.amountInvested) * 100.0 == sub.amountInvested * pkg.profitPercentage
    && sub.actualReturn.None? && sub.status == "active"
    && r.store == s.(subscriptions := s.subscriptions + [sub])
  }

  /** One row of the `GET` reply. */
  datatype Row = Row(
    id: int,
    packageName: string,
    amountInvested: real,
    startDate: int,
    endDate: int,
    status: string,
    expectedReturn: real,
    actualReturn: Option<real>,
    duration: int,
    profitPercentage: real)

  /** Every subscription's package exists (the foreign key). */
  ghost predicate PackagesPresent(s: Store)
  {
    forall i :: 0 <= i < |s.subscriptions| ==> PackageIndex(s, s.subscriptions[i].packageId).Some?
  }

  function SubscriptionsOf(s: Store, uid: UserId): seq<Subscription>
  {
    Filter(s.subscriptions, (x: Subscription) => x.userId == uid)
  }

  /** The `orderBy: { createdAt: "desc" }` key. */
  function NewestFirstKey(x: Subscription): int
  {
    -x.createdAt
  }

  /** The row for one subscription, its package's name and terms alongside. */
  function Project(s: Store, sub: Subscription): (row: Row)
    requires PackageIndex(s, sub.packageId).Some?
    ensures var pkg := s.packages[PackageIndex(s, sub.packageId).value];
            && pkg.id == sub.packageId
            && row.packageName == pkg.name && row.duration == pkg.duration
            && row.profitPercentage == pkg.profitPercentage
    ensures row.id == sub.id && row.amountInvested == sub.amountInvested && row.expectedReturn == sub.expectedReturn
    ensures row.startDate == sub.startDate && row.endDate == sub.endDate
    ensures row.status == sub.status && row.actualReturn == sub.actualReturn
  {
    var pkg := s.packages[PackageIndex(s, sub.packageId).value];
    Row(sub.id, pkg.name, sub.amountInvested, sub.startDate, sub.endDate, sub.status,
        sub.expectedReturn, sub.actualReturn, pkg.duration, pkg.profitPercentage)
  }

  function Rows(s: Store, subs: seq<Subscription>): (rows: seq<Row>)
    requires forall i :: 0 <= i < |subs| ==> PackageIndex(s, subs[i].packageId).Some?
    ensures |rows| == |subs|
    ensures forall i :: 0 <= i < |subs| ==> rows[i] == Project(s, subs[i])
  {
    seq(|subs|, i requires 0 <= i < |subs| => Project(s, subs[i]))
  }

  datatype ListOutcome = ListUnauthorized | ListUserNotFound | Listed(rows: seq<Row>)

  /** `GET`: the caller's subscriptions and nobody else's, each exactly once,
      newest first. */
  function List(s: Store, caller: Option<UserId>): (r: ListOutcome)
    requires PackagesPresent(s)
    ensures r == ListUnauthorized <==> caller.None?
    ensures r.ListUserNotFound? <==> caller.Some? && UserIndex(s, caller.value).None?
    ensures r.Listed? <==> caller.Some? && UserIndex(s, caller.value).Some?
    ensures r.Listed? ==>
              && caller.Some?
              && exists subs: seq<Subscription> :: && multiset(subs) == multiset(SubscriptionsOf(s, caller.value))
                               && SortedBy(subs, NewestFirstKey)
                               && (forall i :: 0 <= i < |subs| ==> PackageIndex(s, subs[i].packageId).Some?)
                               && r.rows == Rows(s, subs)
  {
    if caller.None? then ListUnauthorized
    else if UserIndex(s, caller.value).None? then ListUserNotFound
    else
      var subs := SortBy(SubscriptionsOf(s, caller.value), NewestFirstKey);
      assert forall i :: 0 <= i < |subs| ==> PackageIndex(s, subs[i].packageId).Some? by {
        forall i | 0 <= i < |subs|
          ensures PackageIndex(s, subs[i].packageId).Some?
        {
          assert subs[i] in multiset(SubscriptionsOf(s, caller.value));
          assert subs[i] in multiset(s.subscriptions);
          var k :| 0 <= k < |s.subscriptions| && s.subscriptions[k] == subs[i];
        }
      }
      Listed(Rows(s, subs))
  }

  /** A subscription only ever names a package that exists, so creating one
      keeps every listed row's package resolvable. */
  lemma CreateKeepsPackagesPresent(s: Store, req: CreateRequest, now: int, newId: int)
    requires PackagesPresent(s)
    ensures PackagesPresent(Create(s, req, now, newId).store)
  {
    var r := Create(s, req, now, newId);
    if r.outcome.Created? {
      forall i | 0 <= i < |r.store.subscriptions|
        ensures PackageIndex(r.store, r.store.subscriptions[i].packageId).Some?
      {
        if i < |s.subscriptions| {
          assert r.store.subscriptions[i] == s.subscriptions[i];
        }
      }
    }
  }

  /** Every subscription of a known caller appears among the caller's listed
      rows. */
  lemma ListShows(s: Store, uid: UserId, sub: Subscription)
    requires PackagesPresent(s)
    requires UserIndex(s, uid).Some?
    requires sub in s.subscriptions && sub.userId == uid
    ensures PackageIndex(s, sub.packageId).Some?
    ensures var l := List(s, Some(uid));
            l.Listed? && exists i :: 0 <= i < |l.rows| && l.rows[i] == Project(s, sub)
  {
    var l := List(s, Some(uid));
    var subs: seq<Subscription> :| && multiset(subs) == multiset(SubscriptionsOf(s, uid))
                                   && SortedBy(subs, NewestFirstKey)
                                   && (forall i :: 0 <= i < |subs| ==> PackageIndex(s, subs[i].packageId).Some?)
                                   && l.rows == Rows(s, subs);
    assert sub in multiset(s.subscriptions);
    assert sub in multiset(subs);
    var i :| 0 <= i < |subs| && subs[i] == sub;
    assert l.rows[i] == Project(s, sub);
  }

  /** The caller's next `GET` shows the subscription just created, with the
      package's name, the end date its duration gives and the return its
      profit percentage gives. */
  lemma CreateThenList(s: Store, req: CreateRequest, now: int, newId: int)
    requires PackagesPresent(s)
    requires Create(s, req, now, newId).outcome.Created?
    ensures var s' := Create(s, req, now, newId).store;
            PackagesPresent(s') &&
            var l := List(s', req.caller);
            var pkg := s.packages[PackageIndex(s, req.packageId.value).value];
            && l.Listed?
            && exists i :: 0 <= i < |l.rows| &&
                 l.rows[i] == Row(newId, pkg.name, req.amountInvested.value, now,
                                  EndDate(now, pkg.duration), "active",
                                  ExpectedReturn(req.amountInvested.value, pkg.profitPercentage),
                                  None, pkg.duration, pkg.profitPercentage)
  {
    var r := Create(s, req, now, newId);
    var s' := r.store;
    var sub := r.outcome.subscription;
    CreateKeepsPackagesPresent(s, req, now, newId);
    assert s'.subscriptions[|s.subscriptions|] == sub;
    assert s'.packages == s.packages && s'.users == s.users;
    ListShows(s', req.caller.value, sub);
  }
}

=== FILE: wallet_callback.dfy ===
/** `GET /api/wallet/callback`: Paystack's redirect after a wallet top-up.
    Re-verifies the reference with Paystack, marks every record with that
    reference failed on a non-success verdict, and otherwise credits the
    gateway's amount (kobo converted to naira) less the fixed 2500 fee while
    the user is unregistered, unless the record is already successful. */
module WalletCallback {
  import opened Base
  import opened Ledger
  import opened Gateways

  /** The fixed registration fee of the Paystack routes, in naira. */
  const RegistrationFee: real := 2500.0

  /** The `reference` and `trxref` query parameters. */
  datatype Request = Request(reference: Option<string>, trxref: Option<string>)

  /** Where the callback redirects the browser (`/dashboard?topup=…`). */
  datatype Redirect =
    | NoReference
    | ConfigError
    | VerificationFailed
    | PaymentFailed(status: string)
    | TransactionNotFound
    | AlreadyProcessed
    /** the Paystack call threw, or the record's account or user is missing */
    | ProcessingError
    | Succeeded(amount: real, regFee: Option<real>)

  /** `updateMany({ where: { reference }, data: { status: "failed", … } })`:
      every record with the reference, whatever its status. */
  function MarkFailed(txs: seq<Transaction>, reference: string, platform: string): (r: seq<Transaction>)
    ensures |r| == |txs|
    ensures forall j :: 0 <= j < |txs| && txs[j].reference == reference ==>
              r[j] == txs[j].(status := Failed, platformReference := Some(platform))
    ensures forall j :: 0 <= j < |txs| && txs[j].reference != reference ==> r[j] == txs[j]
  {
    seq(|txs|, j requires 0 <= j < |txs| =>
      if txs[j].reference == reference then txs[j].(status := Failed, platformReference := Some(platform)) else txs[j])
  }

  /** The credit for a gateway amount: less the fee exactly while unregistered. */
  function CreditFor(registered: bool, amount: real): real
  {
    if registered then amount else amount - RegistrationFee
  }

  /** The record a reference loads can be credited: it exists, is not yet
      successful, and its account and that account's user exist. */
  ghost predicate Creditable(s: Store, reference: string)
  {
    && TransactionIndex(s, reference).Some?
    && var tx := s.transactions[TransactionIndex(s, reference).value];
    && tx.status != Successful
    && AccountIndex(s, tx.accountId).Some?
    && UserIndex(s, s.accounts[AccountIndex(s, tx.accountId).value].userId).Some?
  }

  function Callback(s: Store, req: Request, configured: bool, reply: PaystackVerifyReply): (r: Step<Redirect>)
    ensures !Present(OrElse(req.reference, req.trxref)) ==> r == Step(s, NoReference)
    ensures !(r.outcome.Succeeded? || r.outcome.PaymentFailed?) ==> r.store == s
    ensures (&& Present(OrElse(req.reference, req.trxref)) && configured && reply.PaystackVerifyAnswered?
             && (!reply.status || reply.data.None?)) ==> r == Step(s, VerificationFailed)
    ensures (&& Present(OrElse(req.reference, req.trxref)) && configured && reply.PaystackVerifyAnswered?
             && reply.status && reply.data.Some? && reply.data.value.status != "success") ==> r.outcome.PaymentFailed?
    ensures r.outcome.PaymentFailed? ==> FailureEffect(s, req, reply, r)
    ensures r.outcome.AlreadyProcessed? ==>
              var reference := OrElse(req.reference, req.trxref).value;
              TransactionIndex(s, reference).Some? && s.transactions[TransactionIndex(s, reference).value].status == Successful
    ensures r.outcome.Succeeded? <==>
              && Present(OrElse(req.reference, req.trxref)) && configured
              && reply.PaystackVerifyAnswered? && reply.status && reply.data.Some?
              && reply.data.value.status == "success"
              && Creditable(s, OrElse(req.reference, req.trxref).value)
    ensures r.outcome.Succeeded? ==> CreditEffect(s, req, reply, r)
    ensures LatchKept(s, r.store)
  {
    var ref := OrElse(req.reference, req.trxref);
    if !Present(ref) then Step(s, NoReference)
    else if !configured then Step(s, ConfigError)
    else
      var reference := ref.value;
      match reply
      case PaystackVerifyThrown(_) => Step(s, ProcessingError)
      case PaystackVerifyAnswered(ok, data) =>
        if !ok || data.None? then Step(s, VerificationFailed)
        else
          var paid := data.value;
          if paid.status != "success" then
            Step(s.(transactions := MarkFailed(s.transactions, reference, paid.reference)), PaymentFailed(paid.status))
          else match TransactionIndex(s, reference)
          case None => Step(s, TransactionNotFound)
          case Some(t) =>
            var tx := s.transactions[t];
            if tx.status == Successful then Step(s, AlreadyProcessed)
            else match AccountIndex(s, tx.accountId)
            case None => Step(s, ProcessingError)
            case Some(a) =>
              match UserIndex(s, s.accounts[a].userId)
              case None => Step(s, ProcessingError)
              case Some(u) =>
                var user := s.users[u];
                var amount := KoboToNaira(paid.amountKobo);
                var deducted := !user.registrationPaid;
                var credit := CreditFor(user.registrationPaid, amount);
                var welcome := if deducted then [RegistrationFeePaid(RegistrationFee)] else [];
                var notice := WalletCredited(credit, if deducted then Some(FeeDeduction(RegistrationFee, amount)) else None);
                var user' := user.(registrationPaid := true, notifications := user.notifications + welcome + [notice]);
                var s' := s.(
                  accounts := CreditAccount(s.accounts, a, credit),
                  transactions := s.transactions[t := tx.(status := Successful, platformReference := Some(paid.reference))],
                  users := s.users[u := user']);
                Step(s', Succeeded(credit, if deducted then Some(RegistrationFee) else None))
  }

  /** A non-success verdict: only the transactions change, and every record
      with the reference is now failed. */
  ghost predicate FailureEffect(s: Store, req: Request, reply: PaystackVerifyReply, r: Step<Redirect>)
    requires r.outcome.PaymentFailed?
  {
    && Present(OrElse(req.reference, req.trxref))
    && reply.PaystackVerifyAnswered? && reply.status && reply.data.Some?
    && reply.data.value.status != "success"
    && r.outcome.status == reply.data.value.status
    && r.store == s.(transactions := MarkFailed(s.transactions, OrElse(req.reference, req.trxref).value, reply.data.value.reference))
  }

  /** A credit: the record loaded by reference went from not-successful to
      successful, the owner's account gained the gateway amount less the fee
      while unregistered, the owner is registered, exactly one credit
      notification (after a welcome one when the fee was taken) was appended,
      and nothing else moved. */
  ghost predicate CreditEffect(s: Store, req: Request, reply: PaystackVerifyReply, r: Step<Redirect>)
    requires r.outcome.Succeeded?
  {
    var s' := r.store;
    var o := r.outcome;
    && Present(OrElse(req.reference, req.trxref))
    && reply.PaystackVerifyAnswered? && reply.status && reply.data.Some?
    && reply.data.value.status == "success"
    && var amount := KoboToNaira(reply.data.value.amountKobo);
    && TransactionIndex(s, OrElse(req.reference, req.trxref).value).Some?
    && var t := TransactionIndex(s, OrElse(req.reference, req.trxref).value).value;
    && t < |s.transactions|
    && var tx := s.transactions[t];
    && tx.status != Successful
    && AccountIndex(s, tx.accountId).Some?
    && var a := AccountIndex(s, tx.accountId).value;
    && a < |s.accounts|
    && UserIndex(s, s.accounts[a].userId).Some?
    && var u := UserIndex(s, s.accounts[a].userId).value;
    && u < |s.users|
    && var registered := s.users[u].registrationPaid;
    && o.amount == (if registered then amount else amount - RegistrationFee)
    && o.regFee == (if registered then None else Some(RegistrationFee))
    && s'.accounts == CreditAccount(s.accounts, a, o.amount)
    && |s'.transactions| == |s.transactions|
    && s'.transactions[t] == tx.(status := Successful, platformReference := Some(reply.data.value.reference))
    && (forall j :: 0 <= j < |s.transactions| && j != t ==> s'.transactions[j] == s.transactions[j])
    && |s'.users| == |s.users|
    && s'.users[u] == s.users[u].(registrationPaid := true, notifications := s'.users[u].notifications)
    && s'.users[u].notifications == s.users[u].notifications
         + (if registered then [] else [RegistrationFeePaid(RegistrationFee)])
         + [WalletCredited(o.amount, if registered then None else Some(FeeDeduction(RegistrationFee, amount)))]
    && (forall j :: 0 <= j < |s.users| && j != u ==> s'.users[j] == s.users[j])
    && s' == s.(accounts := s'.accounts, transactions := s'.transactions, users := s'.users)
  }

  /** After a credit, calling back again for the same reference never credits
      a second time; it writes nothing unless Paystack now answers with a
      non-success verdict. */
  lemma CallbackIdempotent(s: Store, req: Request, reply: PaystackVerifyReply, reply2: PaystackVerifyReply)
    requires Callback(s, req, true, reply).outcome.Succeeded?
    ensures var s1 := Callback(s, req, true, reply).store;
            var r2 := Callback(s1, req, true, reply2);
            !r2.outcome.Succeeded? && (!r2.outcome.PaymentFailed? ==> r2.store == s1)
  {
    var s1 := Callback(s, req, true, reply).store;
    TransactionIndexStable(s, s1, OrElse(req.reference, req.trxref).value);
  }

  /** The failure marking ignores the record's status: a non-success verdict
      after a credit turns the successful record into a failed one, and a
      later success verdict then credits the same reference a second time. */
  lemma SecondCreditAfterFailureVerdict(
    s: Store, req: Request, reply: PaystackVerifyReply, refused: PaystackTransaction, paid: PaystackTransaction)
    requires Callback(s, req, true, reply).outcome.Succeeded?
    requires refused.status != "success" && paid.status == "success"
    ensures var s1 := Callback(s, req, true, reply).store;
            var s2 := Callback(s1, req, true, PaystackVerifyAnswered(true, Some(refused))).store;
            Callback(s2, req, true, PaystackVerifyAnswered(true, Some(paid))).outcome.Succeeded?
  {
    var reference := OrElse(req.reference, req.trxref).value;
    var s1 := Callback(s, req, true, reply).store;
    var s2 := Callback(s1, req, true, PaystackVerifyAnswered(true, Some(refused))).store;
    var t := TransactionIndex(s, reference).value;
    TransactionIndexStable(s, s1, reference);
    TransactionIndexStable(s1, s2, reference);
    var tx := s.transactions[t];
    AccountIndexStable(s, s1, tx.accountId);
    var a := AccountIndex(s, tx.accountId).value;
    UserIndexStable(s, s1, s.accounts[a].userId, "");
    assert s2.transactions[t].status == Failed;
    assert s2.transactions[t].accountId == tx.accountId;
  }
}

=== FILE: wallet_topup.dfy ===
/** `POST /api/wallet/topup`: starts a Paystack wallet top-up. Same shape as
    the ALATPay initialiser, but the first-top-up minimum is the fixed fee of
    2500 naira whatever the plan, the reference keeps sixteen UUID characters,
    and Paystack is asked for the amount in kobo. */
module WalletTopup {
  import opened Base
  import opened Ledger
  import opened Gateways

  /** The fixed registration fee of the Paystack routes, in naira. */
  const RegistrationFee: real := 2500.0

  /** `caller` is the session's userId (`None` without a token); `amount` is
      `Number(body.amount)`, `None` when that is NaN. */
  datatype Request = Request(caller: Option<UserId>, amount: Option<real>)

  datatype Outcome =
    | NotAuthenticated
    | InvalidAmount
    | UserNotFound
    | AccountNotFound
    | BelowRegistrationFee
    /** the reference is already taken: the unique constraint makes the create throw */
    | DuplicateReference
    /** the gateway key is not configured; the record stays pending */
    | NotConfigured
    | Initialized(paymentUrl: string, reference: string, amount: real, request: InitRequest)
    | InitFailed(request: InitRequest)
    | GatewayError(code: int, request: InitRequest)
    /** a truthy reply status without `data`: reading its URL throws; the record stays pending */
    | MalformedReply(request: InitRequest)

  function HttpStatus(o: Outcome): int
  {
    match o
    case NotAuthenticated => 401
    case InvalidAmount => 400
    case UserNotFound => 404
    case AccountNotFound => 404
    case BelowRegistrationFee => 400
    case DuplicateReference => 500
    case NotConfigured => 500
    case Initialized(_, _, _, _) => 200
    case InitFailed(_) => 400
    case GatewayError(code, _) => code
    case MalformedReply(_) => 500
  }

  /** `TOPUP-` and the first sixteen characters of the UUID. */
  function Reference(uuid: string): string
  {
    "TOPUP-" + Prefix(uuid, 16)
  }

  /** A session and a positive amount: the checks before any lookup. */
  predicate Authenticated(req: Request)
  {
    req.caller.Some? && req.amount.Some? && req.amount.value > 0.0
  }

  /** The caller and their first account exist. */
  ghost predicate HasAccount(s: Store, req: Request)
  {
    && Authenticated(req)
    && UserIndex(s, req.caller.value).Some?
    && FirstAccountIndex(s, s.users[UserIndex(s, req.caller.value).value].id).Some?
  }

  /** Every check the route makes before writing passes: a registered user
      may top up any positive amount, an unregistered one at least the fixed
      registration fee. */
  ghost predicate Accepted(s: Store, req: Request)
  {
    && HasAccount(s, req)
    && (s.users[UserIndex(s, req.caller.value).value].registrationPaid || req.amount.value >= RegistrationFee)
  }

  /** The pending record the route creates for an accepted request. */
  ghost predicate IsTopupRecord(s: Store, req: Request, uuid: string, newId: int, x: Transaction)
  {
    && req.caller.Some?
    && req.amount.Some?
    && UserIndex(s, req.caller.value).Some?
    && var user := s.users[UserIndex(s, req.caller.value).value];
    && FirstAccountIndex(s, user.id).Some?
    && x == Transaction(newId, Reference(uuid), req.amount.value, "topup", x.status, "paystack",
                        s.accounts[FirstAccountIndex(s, user.id).value].id, None)
    && x.amount > 0.0
    && (!user.registrationPaid ==> x.amount >= RegistrationFee)
  }

  function Topup(s: Store, req: Request, uuid: string, newId: int, configured: bool, reply: PaystackInitReply)
    : (r: Step<Outcome>)
    ensures req.caller.None? ==> r == Step(s, NotAuthenticated)
    ensures req.caller.Some? && (req.amount.None? || req.amount.value <= 0.0) ==> r == Step(s, InvalidAmount)
    ensures r.outcome == UserNotFound <==> Authenticated(req) && UserIndex(s, req.caller.value).None?
    ensures r.outcome == AccountNotFound <==>
              Authenticated(req) && UserIndex(s, req.caller.value).Some? && !HasAccount(s, req)
    ensures r.outcome == BelowRegistrationFee <==> HasAccount(s, req) && !Accepted(s, req)
    ensures r.outcome == DuplicateReference <==> Accepted(s, req) && TransactionIndex(s, Reference(uuid)).Some?
    ensures r.store != s <==> Accepted(s, req) && TransactionIndex(s, Reference(uuid)).None?
    ensures r.store == s || AppendedTransaction(s, r.store)
    ensures r.store == s <==>
              r.outcome in {NotAuthenticated, InvalidAmount, UserNotFound, AccountNotFound, BelowRegistrationFee, DuplicateReference}
    ensures r.store != s ==>
              && TransactionIndex(s, Reference(uuid)).None?
              && IsTopupRecord(s, req, uuid, newId, NewestTransaction(r.store))
              && (NewestTransaction(r.store).status == Failed <==> r.outcome.InitFailed?)
              && (!r.outcome.InitFailed? ==> NewestTransaction(r.store).status == Pending)
    ensures r.outcome == NotConfigured <==> r.store != s && !configured
    ensures r.outcome.GatewayError? <==> r.store != s && configured && reply.PaystackInitThrown?
    ensures r.outcome.GatewayError? ==> r.outcome.code == ErrorStatus(reply.httpStatus)
    ensures r.outcome.MalformedReply? <==>
              r.store != s && configured && reply.PaystackInitAnswered? && reply.status && reply.data.None?
    ensures r.outcome.Initialized? <==>
              && r.store != s && configured && reply.PaystackInitAnswered? && reply.status
              && reply.data.Some? && reply.data.value.authorizationUrl != ""
    ensures r.outcome.InitFailed? <==>
              && r.store != s && configured && reply.PaystackInitAnswered?
              && (!reply.status || (reply.data.Some? && reply.data.value.authorizationUrl == ""))
    ensures r.outcome.Initialized? || r.outcome.InitFailed? || r.outcome.GatewayError? || r.outcome.MalformedReply? ==>
              r.outcome.request == InitRequest(req.amount.value * 100.0, Reference(uuid))
    ensures r.outcome.Initialized? ==>
              && r.outcome.reference == Reference(uuid) && r.outcome.amount == req.amount.value
              && reply == PaystackInitAnswered(true, Some(PaystackInitData(r.outcome.paymentUrl)))
              && r.outcome.paymentUrl != ""
  {
    if req.caller.None? then Step(s, NotAuthenticated)
    else if req.amount.None? || req.amount.value <= 0.0 then Step(s, InvalidAmount)
    else
      var parsed := req.amount.value;
      match UserIndex(s, req.caller.value)
      case None => Step(s, UserNotFound)
      case Some(u) =>
        var user := s.users[u];
        match FirstAccountIndex(s, user.id)
        case None => Step(s, AccountNotFound)
        case Some(a) =>
          if !user.registrationPaid && parsed < RegistrationFee then Step(s, BelowRegistrationFee)
          else
            var reference := Reference(uuid);
            if TransactionIndex(s, reference).Some? then Step(s, DuplicateReference)
            else
              var record := Transaction(newId, reference, parsed, "topup", Pending, "paystack", s.accounts[a].id, None);
              var created := s.(transactions := s.transactions + [record]);
              var request := InitRequest(parsed * 100.0, reference);
              if !configured then Step(created, NotConfigured)
              else match reply
                case PaystackInitThrown(code) => Step(created, GatewayError(ErrorStatus(code), request))
                case PaystackInitAnswered(ok, data) =>
                  if ok && data.None? then Step(created, MalformedReply(request))
                  else if ok && data.value.authorizationUrl != "" then
                    Step(created, Initialized(data.value.authorizationUrl, reference, parsed, request))
                  else Step(s.(transactions := s.transactions + [record.(status := Failed)]), InitFailed(request))
  }
}
